=== FILE: README.md ===
# Udyam registration clone — a Dafny model

This project models the core of a clone of the Indian MSME ("Udyam") registration
portal, and proves properties of that model. The clone has three parts:

- **The server** (`backend/api/index.js`). It has a schema-driven validator,
  `validateAgainstSchema`, and five POST handlers:
  - `/api/validate`;
  - `/api/generate-otp`, which issues a six-digit code for an Aadhaar number;
  - `/api/verify-otp`, which checks such a code;
  - `/api/submit-pan`, which stores PAN details after a format check;
  - `/api/submit`, which stores a whole registration.

  The three document collections are modelled as append-only sequences in a
  `Db` value. Each handler is a pure function from (store, request body) to
  (reply, new store).
- **The schema-driven form page** (`frontend/src/components/FormRenderer.jsx`):
  - `enrichSchema` fills in default patterns inferred from field keys.
  - `splitIntoSteps` groups fields into pages. It groups by an explicit `step`
    attribute, with the pages sorted by key as text. Otherwise it sorts fields
    onto two pages by keywords, with a borrowing fallback.
  - `prettifyName` builds labels.
  - The per-field validation rules are built from each descriptor.
  - Next and Back move between pages and clamp the page index. The progress
    bar's two step buttons set the index directly.
  - The PIN auto-fill decides which fields to use and when to look a PIN up.
- **The three-step Aadhaar/OTP/PAN page** (`frontend/src/App.jsx`):
  - the initial form data;
  - `handleChange`, which maps the portal's input names onto the server's body
    keys;
  - the step machine (1 → 2 → 3 → 1) and its error and OTP messages.

The modules follow that structure:

- Shared modules:
  - `Wrappers`: `Option`.
  - `Js`: JSON values, truthiness, `String()`, decimal text, `parseInt`, ASCII
    case and substring search.
  - `Seqs`: filter and flatten.
  - `FormSchema`: field descriptors and key fallbacks.
- Server modules: `Validator` and `Api`.
- Form-page modules: `Enrich`, `StringOrder`, `Grouping`, `Steps`, `Prettify`,
  `Rules` and `PinLookup`.
- The three-step page: `App`.

Schema patterns are run by an abstract regular-expression engine. It is a
`Regex` value with two functions:

- `compiles(p)`: whether `new RegExp(p)` succeeds;
- `test(p, s)`: what `.test(s)` returns.

Modelling choices that follow the code rather than a looser reading of it:

- **Error handling differs between handlers.** The validator does not guard
  `new RegExp`. In `/api/generate-otp` a bad pattern is caught and becomes a
  500 "Server error". In `/api/validate` and `/api/submit` the validation runs
  outside any `try`, so the exception escapes the handler. The model's reply for
  that case is `Uncaught`.
- **A lost connection surfaces late.** `connectDB` swallows its own errors, so
  the failure only shows when the handler touches the store. Validation and the
  request checks therefore still answer 400 first. Only then does a
  disconnected store give the 500 reply.
- **Case-insensitive keyword tests.** Every keyword in these patterns is ASCII
  letters, and an `/i` match never equates a non-ASCII character with an ASCII
  one. So each such test is modelled as a substring test on the
  ASCII-lowercased key.
- **Step keys are sorted as text.** `Object.keys(map).sort()` orders step keys
  character by character, so a field with `step: 10` comes before one with
  `step: 2`. That is proved, not corrected.

Discrepancies between the parts, each stated as a lemma:

- **PAN letter case.** The browser's inferred PAN pattern accepts lower-case
  letters; the server's PAN check does not (`App.PanCaseDiscrepancy`).
- **Labels.** The browser names a field by its placeholder when it has no
  label; the server names it by its key (`Rules.PlaceholderLabelDiffers`).
- **Bad patterns.** A schema pattern that does not compile is silently dropped
  by the browser but raises on the server
  (`Rules.BadPatternDroppedHereRaisedThere`).

## Model

| member | source | states |
|---|---|---|
| Validator.Validate | backend/api/index.js:56-77 | an empty descriptor list yields no errors; there is at most one error per descriptor; when every pattern compiles, validation never throws |
| Validator.ValidateAppend | backend/api/index.js:59-74 | validating two descriptor lists one after the other gives the errors of the first, then those of the second, and the first exception wins: errors come in schema order |
| Validator.ErrorFieldsAreKeys | backend/api/index.js:60-71 | no error is filed under a key that no descriptor has |
| Validator.OwnErrors | backend/api/index.js:59-74 | with unique keys and no exception raised (whatever patterns would fail to compile but are never reached), the errors filed under a descriptor's key are exactly what that descriptor's own check produced |
| Validator.MissingRequired | backend/api/index.js:63-66 | a required field whose value is undefined or "" yields exactly one error, "<label> is required"; its check fails this way for every regular-expression engine, so its pattern is not consulted, and the fact holds even when that pattern does not compile |
| Validator.BadFormat | backend/api/index.js:68-72 | when validation raised nothing, a truthy value the pattern rejects yields exactly one error, "<label> invalid format" |
| Validator.OptionalAbsent | backend/api/index.js:63-73 | an optional field with a falsy value yields no error; its check passes for every regular-expression engine, so this holds whatever its pattern, even one that does not compile |
| Validator.AcceptsIffConforms | backend/api/index.js:56-77 | a body is accepted with no errors exactly when every value conforms to its descriptor (present if required; matches its pattern if truthy) |
| Validator.MissingSchemaAcceptsAll | backend/api/index.js:17-30 | when the schema file is missing or unreadable, the server runs with an empty field list and accepts every body |
| Api.ValidateRoute | backend/api/index.js:96-102 | it answers ok exactly when every value conforms; otherwise it lists between one error and one per field, or the exception escapes |
| Api.OtpCode | backend/api/index.js:120 | the code is six decimal digits without a leading zero, and its value is 100000 plus the random draw |
| Api.GenerateOtp | backend/api/index.js:105-136 | a code is issued exactly when the body validates, has truthy aadhaar, name and consent, and the store is reachable; issuing appends one record holding the code; every failure leaves the store unchanged |
| Api.FindOtp | backend/api/index.js:149 | the lookup succeeds exactly when some stored record has this Aadhaar value and this code |
| Api.VerifyOtp | backend/api/index.js:139-159 | the store is only read; verification succeeds exactly when both values are truthy, the store is reachable and a record with exactly these values exists; a missing value gives "Aadhaar and OTP are required" |
| Api.OtpRoundTrip | backend/api/index.js:105-159 | a code just issued verifies when presented with the same Aadhaar value |
| Api.WrongCodeRefused | backend/api/index.js:145-152 | on a store with no earlier codes, any other code is refused |
| Api.VerificationPersists | backend/api/index.js:122-154 | codes are never consumed or expired: a verifying request keeps verifying after further codes are issued |
| Api.PanFormatExamples | backend/api/index.js:172-176 | the PAN format accepts ABCDE1234F and rejects ABC123 and the lower-case abcde1234f |
| Api.SubmitPan | backend/api/index.js:162-193 | missing fields are refused first, then a bad format; on success exactly one record is appended, with the consent flag converted to a boolean; nothing else changes |
| Api.Submit | backend/api/index.js:195-215 | a registration is saved exactly when the body validates, the store is reachable and no stored registration already has the body's own `_id`; its id is that `_id`, or a fresh generated one; the stored document is the stamped body; otherwise the store is unchanged |
| Api.Stamp | backend/api/index.js:205-209 | the stored document keeps every body entry except `createdAt` and `updatedAt`, which hold the server's two clock readings |
| Api.ClientTimestampsOverwritten | backend/api/index.js:205-209 | a `createdAt` or `updatedAt` sent by the client never reaches the store: the body is stored as if it did not carry them |
| Api.SubmitKeepsIdsUnique | backend/api/index.js:205-210 | no submission ever stores two registrations with the same `_id` of their own |
| Api.ResubmitWithIdFails | backend/api/index.js:205-213 | posting the same body with an `_id` a second time fails with "DB save failed" and stores nothing |
| Api.ResubmitWithoutIdSaves | backend/api/index.js:205-210 | a body without `_id` can be stored again, under a new generated id |
| Enrich.ApplyRules | frontend/src/components/FormRenderer.jsx:262-269 | the statements run in turn without else: with no matching rule the pattern stays as it was, otherwise the last matching rule's pattern wins |
| Enrich.InferPatternPriority | frontend/src/components/FormRenderer.jsx:263-268 | the inferred pattern as a priority list: an otp or pin word gives six digits, else a pan word gives the PAN pattern, else an Aadhaar word gives twelve digits, else nothing |
| Enrich.AadhaarAndPanGetsPan | frontend/src/components/FormRenderer.jsx:263-266 | a key holding both "aadhaar" and "pan", and none of the six-digit words otp, pin, pincode, postal, gets the PAN pattern: the later statement overrides |
| Enrich.OtpGetsSixDigits | frontend/src/components/FormRenderer.jsx:267-268 | any key holding "otp" gets the six-digit pattern, whatever else it holds |
| Enrich.EnrichField | frontend/src/components/FormRenderer.jsx:257-271 | only the pattern may change; a truthy pattern is kept; a missing one is inferred from the lowercased key |
| Enrich.EnrichFields | frontend/src/components/FormRenderer.jsx:257-271 | the same number of descriptors, each enriched in place |
| Enrich.EnrichSchema | frontend/src/components/FormRenderer.jsx:255-274 | the result always has a field list, of the same length and order, differing from the input at most in patterns that were missing |
| Enrich.EnrichIdempotent | frontend/src/components/FormRenderer.jsx:255-274 | enriching twice is the same as enriching once |
| Enrich.EnrichMissingFields | frontend/src/components/FormRenderer.jsx:257-273 | a schema without fields is enriched to an empty field list |
| StringOrder.LexLeTotal | frontend/src/components/FormRenderer.jsx:295 | any two keys are comparable under the default sort order |
| StringOrder.LexLeAntisymmetric | frontend/src/components/FormRenderer.jsx:295 | two keys each at most the other are equal |
| StringOrder.LexLeTransitive | frontend/src/components/FormRenderer.jsx:295 | the default sort order is transitive |
| StringOrder.TenBeforeTwo | frontend/src/components/FormRenderer.jsx:294-295 | the default sort compares as text, so "10" sorts before "2" |
| StringOrder.Sort | frontend/src/components/FormRenderer.jsx:294-295 | the sorted keys are a rearrangement of the keys, in non-decreasing text order |
| StringOrder.SortedDistinctAscending | frontend/src/components/FormRenderer.jsx:294-295 | sorted distinct keys ascend strictly |
| Grouping.CollectMembers | frontend/src/components/FormRenderer.jsx:288-292 | the entry filled for a key holds every element with that key, in input order |
| Grouping.CollectKeysDistinct | frontend/src/components/FormRenderer.jsx:290 | each key is created once |
| Grouping.CollectKeysCover | frontend/src/components/FormRenderer.jsx:288-292 | every element's key becomes a key of the object |
| Grouping.BucketsPermute | frontend/src/components/FormRenderer.jsx:288-296 | the buckets, read in sorted key order, are a rearrangement of the input |
| Grouping.GroupSorted | frontend/src/components/FormRenderer.jsx:287-296 | the buckets are a rearrangement of the input; each is non-empty and holds all elements of its key in input order; keys ascend strictly |
| Steps.GroupByStep | frontend/src/components/FormRenderer.jsx:286-297 | the pages are a rearrangement of the fields; each page is non-empty and holds every field of its step key, in schema order; the pages' keys ascend strictly as text |
| Steps.FalsyStepIsZero | frontend/src/components/FormRenderer.jsx:289 | a field whose step is falsy is grouped under "0" |
| Steps.UniformStepOnePage | frontend/src/components/FormRenderer.jsx:286-297 | when every step is falsy, the result is one page holding all fields in their order |
| Steps.StepTenBeforeStepTwo | frontend/src/components/FormRenderer.jsx:289-296 | a field with step 10 lands on an earlier page than one with step 2 |
| Steps.Distribute | frontend/src/components/FormRenderer.jsx:305-319 | step 1 holds exactly the fields matching a step-1 word, and step 2 those matching only a step-2 word or no word and not hidden, each in schema order |
| Steps.Borrow | frontend/src/components/FormRenderer.jsx:321-325 | nothing is lost or reordered; when step 1 is empty and step 2 is not, step 1 takes two fields, or all of them if fewer; otherwise nothing moves |
| Steps.KeywordPartition | frontend/src/components/FormRenderer.jsx:308-319 | the two selections together are exactly the kept fields |
| Steps.SplitIntoSteps | frontend/src/components/FormRenderer.jsx:283-328 | step mode: a rearrangement into non-empty pages; keyword mode: two pages holding exactly the kept fields, the first empty only when nothing is kept |
| Steps.KeywordPages | frontend/src/components/FormRenderer.jsx:299-327 | in keyword mode with some step-1 field, the pages are the two keyword selections |
| Steps.BorrowedPages | frontend/src/components/FormRenderer.jsx:321-327 | without step-1 fields, the kept fields stay in order across the pages, and page one takes two of them (or all, if fewer) |
| Steps.SameSelection | frontend/src/components/FormRenderer.jsx:308-319 | without step-1 fields, step 2 receives every kept field |
| Steps.HiddenFieldDropped | frontend/src/components/FormRenderer.jsx:315-316 | a hidden field with no keyword is on neither page |
| Steps.OnNext | frontend/src/components/FormRenderer.jsx:95-108 | an invalid page stays put; a valid one advances by one, but never past the last page |
| Steps.OnBack | frontend/src/components/FormRenderer.jsx:110 | it goes back one page, never before the first |
| Steps.NavigateInRange | frontend/src/components/FormRenderer.jsx:90-126 | starting on a page or step label of a non-empty wizard, any sequence of Next, Back and progress-bar clicks keeps the index on a page or a label; it passes the last page only as index 1 of a one-page wizard |
| Steps.NextBackStayOnPages | frontend/src/components/FormRenderer.jsx:95-110 | Next and Back alone never leave the existing pages |
| Steps.SplitHasPages | frontend/src/components/FormRenderer.jsx:283-328 | the form always has at least one page |
| Steps.CurrentFieldsReachable | frontend/src/components/FormRenderer.jsx:90-231 | from the first page, the fields shown are the current page's own, and the empty-list fallback is taken exactly when "Step 2" is selected on a one-page wizard, where Submit replaces Next |
| Steps.StepTwoOfOnePage | frontend/src/components/FormRenderer.jsx:90-231 | that case happens: with every step 0 there is one page, and clicking "Step 2" shows no fields and offers Submit |
| Steps.StepNames | frontend/src/components/FormRenderer.jsx:96 | the names Next validates are exactly the non-empty keys of the page's fields |
| Prettify.DropSeparators | frontend/src/components/FormRenderer.jsx:250 | it removes exactly the leading run of separators |
| Prettify.SquashRun | frontend/src/components/FormRenderer.jsx:250 | a maximal run of separators between plain text becomes exactly one space, and the text on either side is squashed on its own |
| Prettify.SquashFirstName | frontend/src/components/FormRenderer.jsx:250 | "first_name" becomes "first name" |
| Prettify.PrettifyFirstName | frontend/src/components/FormRenderer.jsx:248-253 | the label generated for "first_name" is "First Name" |
| Prettify.Squash | frontend/src/components/FormRenderer.jsx:250 | no separator (`_ - $ .` or digit) is left, and the text does not grow |
| Prettify.SquashKeepsPlainText | frontend/src/components/FormRenderer.jsx:250 | a name without separators is unchanged |
| Prettify.SquashKeepsVisible | frontend/src/components/FormRenderer.jsx:250 | all characters other than separators and spaces survive, in order |
| Prettify.Capitalize | frontend/src/components/FormRenderer.jsx:251 | every word start is upper-cased and every other character is kept |
| Prettify.TrimEnd | frontend/src/components/FormRenderer.jsx:252 | exactly the trailing white space is removed |
| Prettify.PrettifyShape | frontend/src/components/FormRenderer.jsx:248-253 | a generated label has no white space at either end and no separator, and every lower-case letter continues a word |
| Rules.FieldName | frontend/src/components/FormRenderer.jsx:139 | the input name is never empty: the key, or field_<i> without one |
| Rules.MaxLength | frontend/src/components/FormRenderer.jsx:142 | a rule exists exactly when the attribute is truthy and parses to a non-zero integer, which is then the limit |
| Rules.BuildRules | frontend/src/components/FormRenderer.jsx:138-161 | a required rule exactly for required fields, a length rule exactly for a usable limit, a pattern rule exactly for a compiling pattern; the messages are "<label> is required", "Max <n> characters" and "<label> invalid format" |
| Rules.MaxLengthOfNumber | frontend/src/components/FormRenderer.jsx:142 | a numeric limit other than 0 that prints positionally (below 1e21 in magnitude) is used unchanged |
| Rules.MaxLengthOfText | frontend/src/components/FormRenderer.jsx:142 | a positive limit written as decimal text, up to 2^53 - 1, is read back exactly |
| Rules.MessagesMatchServer | frontend/src/components/FormRenderer.jsx:140-157 | with a label, the browser's required and format messages are word for word the server's |
| Rules.PlaceholderLabelDiffers | frontend/src/components/FormRenderer.jsx:140 | with a placeholder but no label, the browser and the server name the field differently |
| Rules.BadPatternDroppedHereRaisedThere | frontend/src/components/FormRenderer.jsx:152-160 | a pattern that does not compile is dropped by the browser, while the server raises on a truthy value for it |
| Js.ParseIntOfNumber | frontend/src/components/FormRenderer.jsx:142 | parseInt reads any integer below 1e21 in magnitude back from its printed text |
| Js.NatTextRoundTrip | backend/api/index.js:120 | the decimal text of a number reads back as that number |
| PinLookup.FindFieldName | frontend/src/components/FormRenderer.jsx:39-59 | the key of the first field that mentions a word, and none exactly when no field does |
| PinLookup.FoundKeyNonEmpty | frontend/src/components/FormRenderer.jsx:41-44 | a found key is never empty |
| PinLookup.TextTriggersBySize | frontend/src/components/FormRenderer.jsx:62-67 | a string value, which is what a text input holds, triggers the lookup exactly when it has six characters, whatever they are |
| PinLookup.SixDigitNumberTriggers | frontend/src/components/FormRenderer.jsx:67 | every six-digit number triggers the lookup |
| PinLookup.ShortNumberIgnored | frontend/src/components/FormRenderer.jsx:67 | no positive number of fewer than six digits triggers it |
| PinLookup.LongNumberIgnored | frontend/src/components/FormRenderer.jsx:67 | no number of seven or more digits below 1e21 triggers it |
| PinLookup.BlankIgnored | frontend/src/components/FormRenderer.jsx:67 | an absent, empty or zero value never triggers it |
| App.SeedFields | frontend/src/App.jsx:119-122 | every descriptor's slot is present except `__proto__`, whose assignment only reaches the prototype setter and creates no entry; every entry starts as "" or false |
| App.SeedFieldsSlots | frontend/src/App.jsx:120-122 | no entry exists beyond the descriptors' slots |
| App.SeedFieldsLastWins | frontend/src/App.jsx:120-122 | a slot (other than `__proto__`) written by several descriptors holds the value of the last of them |
| App.InitialFormData | frontend/src/App.jsx:119-130 | the five forced entries hold their fixed values whatever the schema says; every slot but `__proto__` is present, and `__proto__` never is; every entry starts empty or unchecked |
| App.InitialFormDataKeys | frontend/src/App.jsx:119-130 | the initial data holds only the forced entries and the descriptors' slots |
| App.InitialValueOfField | frontend/src/App.jsx:119-130 | an unforced slot starts as false for a checkbox and as "" otherwise |
| App.AliasName | frontend/src/App.jsx:137-140 | the later includes test wins: consent over name over aadhaar; any other name is kept |
| App.AadhaarInputAliased | frontend/src/App.jsx:137-140 | the portal's Aadhaar input writes the aadhaar entry |
| App.OwnerNameInputAliased | frontend/src/App.jsx:137-140 | the portal's owner-name input writes the name entry |
| App.OtpInputNotAliased | frontend/src/App.jsx:137-140 | the otp input keeps its name |
| App.HandleChange | frontend/src/App.jsx:135-145 | exactly one entry is written, with the checked flag for a checkbox and the value otherwise; every other entry is as it was |
| App.Pick | frontend/src/App.jsx:155-159 | the request body holds exactly the listed entries that are defined, with their values |
| App.PickLookup | frontend/src/App.jsx:155-159 | every listed key reads the same from the body as from the form data |
| App.AnswerOf | frontend/src/App.jsx:161-167 | the browser sees an ok answer exactly for the server's success replies; a sent code carries its code; a refusal or server error carries its message |
| App.ErrorText | frontend/src/App.jsx:166 | the shown error is never empty: the server's message if non-empty, else the fallback |
| App.OnGenerateOtp | frontend/src/App.jsx:147-171 | the form data is untouched; success clears the error, shows "OTP: <code>" and moves to step 2; a failure keeps the step, clears the OTP message and shows a non-empty error; no answer shows "Error generating OTP" |
| App.OnVerifyOtp | frontend/src/App.jsx:173-195 | form data and OTP message are untouched; success clears the error and moves to step 3; a failure keeps the step and shows a non-empty error; no answer shows "Error verifying OTP" |
| App.OnSubmitPan | frontend/src/App.jsx:197-223 | form data and OTP message are untouched; success clears the error and returns to step 1; a failure keeps the step and shows a non-empty error; no answer shows "Error submitting PAN" |
| App.StepsStayInRange | frontend/src/App.jsx:147-223 | the step stays between 1 and 3 |
| App.FreshFormGetsNoOtp | frontend/src/App.jsx:119-171 | a freshly loaded page cannot obtain a code: its request carries the empty Aadhaar entry, so no code is issued, the store is unchanged, and the page stays on step 1 with an error |
| App.TypedOtpVerifies | frontend/src/App.jsx:147-195 | after a code is issued for the page's data, typing it into the otp input and verifying reaches step 3 |
| App.StrictPanIsLoose | frontend/src/components/FormRenderer.jsx:265-266 | every PAN the server accepts also passes the browser's inferred pattern |
| App.PanCaseDiscrepancy | backend/api/index.js:172-176 | the lower-case PAN abcde1234f passes the browser's inferred pattern but is refused by the server with "Invalid PAN format" |

## Left out

- Express, MongoDB and the network are not modelled.
  - The store is a value with a `connected` flag. Any failure of `insertOne` or
    `findOne` is a disconnected store.
  - `new Date()` becomes a parameter. The two readings of `/api/submit` are
    integers (milliseconds). The `createdAt` of OTP and PAN records is not
    stored, because those records have fixed fields that no body entry can
    reach.
  - A generated Mongo `ObjectId` is modelled as the record's position in its
    collection. A body's own `_id` is modelled, including the duplicate-key
    failure.
  - `GET /api/schema`, `GET /api` and `GET /` only echo data and are left out.
- `Math.random()` becomes a parameter: the integer draw below 900000.
- What the framework does with an exception that escapes a handler is left out.
  This is `Uncaught` in the model, an HTML 500 from Express for a synchronous
  handler and an unhandled rejection for an async one.
- Mongo query-operator objects in request bodies are left out, and so are JSON
  objects, arrays and fractional numbers as values. A value is undefined, null,
  a boolean, an integer or a string.
- Validator.Validate: the descriptor's `required` attribute is a boolean. The
  source tests its truthiness, so a schema with `required: "yes"` is not
  represented.
- Rules.MaxLength: a fractional `maxlength` number is not represented, because
  values are integers. `parseInt` of such text stops at the first non-digit, as
  in the model.
- Js.Stringify: a JavaScript number is a double, while `Num` holds any integer.
  - `Num` is exact only for the integers a double holds. Beyond 2^53 - 1, not
    every integer is one.
  - From 1e21 on, `String` prints exponent notation ("1e+21"). The model prints
    every integer positionally.
  - The lemmas about printing and `parseInt` are therefore stated only below
    those bounds: Js.ParseIntOfNumber, Rules.MaxLengthOfNumber and
    Rules.MaxLengthOfText.
- Unicode case mapping is not modelled. `toLowerCase` is ASCII-only here.
  - Only U+0130 and U+212A lower to ASCII letters. Neither changes any keyword
    match, because U+0130 lowers to "i" followed by a combining dot, and no
    keyword contains a "k".
  - `String.length` counts UTF-16 code units. The model counts characters.
- `Array.prototype.sort` compares UTF-16 code units, while the model compares
  characters. The two orders agree on the Basic Multilingual Plane.
- The HTTP request of the PIN lookup and the state/city fill from its answer
  are not modelled. Only the field detection and the trigger guard are.
- React state, effects, `alert`, DOM scrolling and react-hook-form's own
  checking and error bookkeeping are not modelled.
  - `trigger(names)` becomes the boolean `valid` of the Next button.
  - `fetch`/`res.json()` failures become `NoAnswer`.
- `FormRenderer`'s `onSubmit`, which posts the form data to `/api/submit`, is
  not modelled on the browser side; `/api/submit` is modelled on the server.
- The progress bar (`frontend/src/components/Progress.jsx`) is modelled only
  through its clicks. It renders one button per step label, and a click passes
  that label's index to the `onSelect` that `FormRenderer.jsx:126` wires to
  `setCurrentStep`. Its active/done styling and fill width are not modelled.
- `scraper/scrape_udyam.py` is not part of this model.
- `backend/test/api.test.js` is not modelled.
  - It loads `../index`, but the server lives in `backend/api/index.js`.
  - It matches the first error object against a regular expression as if it
    were a string.
- The schema file is read once at start-up and never changes, so the schema is
  a parameter of the handlers.
- Steps.GroupByStep: a step whose text names a member inherited by plain objects
  (`constructor`, `toString`, `__proto__` and so on) makes the source throw. The
  `map[stepKey]` lookup finds the inherited member, which has no `push`. The
  model groups such a step like any other key.
- Validator.ValueOf: `data[name]` also finds members inherited by every object.
  - Take a required descriptor named `constructor` or `toString`, absent from
    the body. The source reads a truthy function and reports nothing, while the
    model reads `undefined` and reports "is required".
  - A pattern on such a field is tested against the function's source text.

=== FILE: api.dfy ===
/**
 The REST handlers of the server: `/api/validate`, `/api/generate-otp`,
 `/api/verify-otp`, `/api/submit-pan` and `/api/submit`, each a function from the
 request body and the store to a reply and the new store. The three document
 collections are append-only sequences of records.
 */
module Api {
  import opened Wrappers
  import opened Js
  import opened FormSchema
  import opened Validator

  /** A JSON request body. */
  type Body = map<string, Value>

  datatype OtpRecord = OtpRecord(aadhaar: Value, name: Value, otp: string)

  datatype PanRecord = PanRecord(
    aadhaar: Value, orgType: Value, pan: Value, panName: Value, panDob: Value, panConsent: bool)

  /** The document store. When `connected` is false every insert or find throws. */
  datatype Db = Db(
    connected: bool,
    otps: seq<OtpRecord>,
    pans: seq<PanRecord>,
    registrations: seq<Registration>)

  /** A stored registration: the body's entries spread into a new document whose
      `createdAt` and `updatedAt` are then written with the two `new Date()`
      readings (milliseconds), replacing any the body carried. */
  datatype Registration = Registration(entries: Body, createdAt: int, updatedAt: int)

  /** The two keys the server writes after spreading the body. */
  const Timestamps: set<string> := {"createdAt", "updatedAt"}

  /** `{ ...body, createdAt: new Date(), updatedAt: new Date() }`: every entry of
      the body except the timestamps is kept, and the timestamps are the clock's. */
  function Stamp(body: Body, created: int, updated: int): (reg: Registration)
    ensures reg.createdAt == created && reg.updatedAt == updated
    ensures forall k | k in body && k !in Timestamps :: k in reg.entries && reg.entries[k] == body[k]
    ensures forall k | k in reg.entries :: k in body && k !in Timestamps
  {
    Registration(body - Timestamps, created, updated)
  }

  /** The `_id` a registration is stored under: the body's own `_id` when it
      carries one, otherwise an ObjectId the store generates. No JSON value equals
      a generated ObjectId, so a generated id is told apart by its position. */
  datatype RecordId = Generated(position: nat) | Given(value: Value)

  /** HTTP replies: 200 bodies, 400 bodies, 500 bodies, and an exception that
      escapes the handler and is left to the HTTP framework. */
  datatype Reply =
    | Valid                                   // 200 { ok: true }
    | OtpSent(message: string, otp: string)   // 200 { message, otp }
    | Accepted(message: string)               // 200 { ok: true, message }
    | Saved(id: RecordId)                     // 200 { ok: true, id }
    | Invalid(errors: seq<FieldError>)        // 400 { errors }
    | Rejected(error: string)                 // 400 { error }
    | ServerError(error: string)              // 500 { error }
    | SaveFailed                              // 500 { message: "DB save failed" }
    | Uncaught(pattern: string)               // the schema pattern whose compilation threw

  datatype Outcome = Outcome(reply: Reply, db: Db)

  // ---------- /api/validate ----------

  /** `POST /api/validate` (a synchronous handler with no `try`). */
  function ValidateRoute(fields: seq<Field>, re: Regex, body: Body): (r: Reply)
    ensures r.Valid? <==> forall i | 0 <= i < |fields| :: Conforms(fields[i], ValueOf(body, fields[i]), re)
    ensures r.Invalid? ==> r.errors != [] && |r.errors| <= |fields|
    ensures r.Valid? || r.Invalid? || r.Uncaught?
  {
    AcceptsIffConforms(fields, body, re);
    match Validate(fields, body, re)
    case Throws(p) => Uncaught(p)
    case Errors(es) => if es != [] then Invalid(es) else Valid
  }

  // ---------- OTP ----------

  /** A six-digit decimal code with no leading zero. */
  predicate IsOtpCode(s: string) {
    |s| == 6 && AllDigits(s) && s[0] != '0'
  }

  /** `Math.floor(100000 + Math.random() * 900000).toString()`, where `draw` is the
      integer part of `Math.random() * 900000`. */
  function OtpCode(draw: nat): (otp: string)
    requires draw < 900000
    ensures IsOtpCode(otp)
    ensures DigitsValue(otp) == 100000 + draw
  {
    NatTextLength(100000 + draw, 5);
    NatTextRoundTrip(100000 + draw);
    NatText(100000 + draw)
  }

  /** `POST /api/generate-otp`. */
  function GenerateOtp(fields: seq<Field>, re: Regex, db: Db, body: Body, draw: nat): (r: Outcome)
    requires draw < 900000
    ensures r.db.connected == db.connected && r.db.pans == db.pans && r.db.registrations == db.registrations
    ensures r.reply.OtpSent? <==>
              && Validate(fields, body, re) == Errors([])
              && Truthy(Lookup(body, "aadhaar")) && Truthy(Lookup(body, "name")) && Truthy(Lookup(body, "consent"))
              && db.connected
    ensures r.reply.OtpSent? ==>
              && IsOtpCode(r.reply.otp)
              && r.db.otps == db.otps + [OtpRecord(Lookup(body, "aadhaar"), Lookup(body, "name"), r.reply.otp)]
    ensures !r.reply.OtpSent? ==> r.db == db
    ensures r.reply.OtpSent? || r.reply.Invalid? || r.reply.Rejected? || r.reply.ServerError?
  {
    match Validate(fields, body, re)
    case Throws(_) => Outcome(ServerError("Server error"), db)
    case Errors(es) =>
      var aadhaar, name, consent := Lookup(body, "aadhaar"), Lookup(body, "name"), Lookup(body, "consent");
      if es != [] then Outcome(Invalid(es), db)
      else if !Truthy(aadhaar) || !Truthy(name) || !Truthy(consent) then
        Outcome(Rejected("Missing required fields"), db)
      else if !db.connected then Outcome(ServerError("Server error"), db)
      else
        var otp := OtpCode(draw);
        Outcome(OtpSent("OTP generated successfully", otp), db.(otps := db.otps + [OtpRecord(aadhaar, name, otp)]))
  }

  /** Some stored record carries exactly this Aadhaar value and this code. */
  predicate Issued(otps: seq<OtpRecord>, aadhaar: Value, otp: Value) {
    exists i | 0 <= i < |otps| :: otps[i].aadhaar == aadhaar && Str(otps[i].otp) == otp
  }

  /** `findOne({ aadhaar, otp })`: a scan of the collection for an exact match. */
  function FindOtp(otps: seq<OtpRecord>, aadhaar: Value, otp: Value): (found: bool)
    ensures found <==> Issued(otps, aadhaar, otp)
  {
    if otps == [] then false
    else if otps[0].aadhaar == aadhaar && Str(otps[0].otp) == otp then true
    else
      assert forall i | 1 <= i < |otps| :: otps[i] == otps[1..][i - 1];
      FindOtp(otps[1..], aadhaar, otp)
  }

  /** `POST /api/verify-otp`. The store is only read. */
  function VerifyOtp(db: Db, body: Body): (r: Outcome)
    ensures r.db == db
    ensures r.reply.Accepted? <==>
              && Truthy(Lookup(body, "aadhaar")) && Truthy(Lookup(body, "otp"))
              && db.connected && Issued(db.otps, Lookup(body, "aadhaar"), Lookup(body, "otp"))
    ensures (!Truthy(Lookup(body, "aadhaar")) || !Truthy(Lookup(body, "otp")))
              ==> r.reply == Rejected("Aadhaar and OTP are required")
    ensures r.reply.Accepted? || r.reply.Rejected? || r.reply.ServerError?
  {
    var aadhaar, otp := Lookup(body, "aadhaar"), Lookup(body, "otp");
    if !Truthy(aadhaar) || !Truthy(otp) then Outcome(Rejected("Aadhaar and OTP are required"), db)
    else if !db.connected then Outcome(ServerError("Server error"), db)
    else if !FindOtp(db.otps, aadhaar, otp) then Outcome(Rejected("Invalid OTP"), db)
    else Outcome(Accepted("OTP verified successfully"), db)
  }

  /** The verification request for an Aadhaar value and a code. */
  function VerifyBody(aadhaar: Value, otp: string): Body {
    map["aadhaar" := aadhaar, "otp" := Str(otp)]
  }

  /** Issuing a code and then presenting it with the same Aadhaar value verifies. */
  lemma {:induction false} OtpRoundTrip(fields: seq<Field>, re: Regex, db: Db, body: Body, draw: nat)
    requires draw < 900000
    requires GenerateOtp(fields, re, db, body, draw).reply.OtpSent?
    ensures var r := GenerateOtp(fields, re, db, body, draw);
            VerifyOtp(r.db, VerifyBody(Lookup(body, "aadhaar"), r.reply.otp)).reply.Accepted?
  {
    var r := GenerateOtp(fields, re, db, body, draw);
    var q := VerifyBody(Lookup(body, "aadhaar"), r.reply.otp);
    assert Lookup(q, "aadhaar") == Lookup(body, "aadhaar");
    assert Lookup(q, "otp") == Str(r.reply.otp);
    var n := |db.otps|;
    assert r.db.otps[n].aadhaar == Lookup(q, "aadhaar") && Str(r.db.otps[n].otp) == Lookup(q, "otp");
  }

  /** On a store that held no codes, any code other than the issued one is refused. */
  lemma {:induction false} WrongCodeRefused(fields: seq<Field>, re: Regex, db: Db, body: Body, draw: nat, guess: string)
    requires draw < 900000 && db.otps == []
    requires GenerateOtp(fields, re, db, body, draw).reply.OtpSent?
    requires guess != GenerateOtp(fields, re, db, body, draw).reply.otp
    ensures var r := GenerateOtp(fields, re, db, body, draw);
            VerifyOtp(r.db, VerifyBody(Lookup(body, "aadhaar"), guess)).reply.Rejected?
  {
    var r := GenerateOtp(fields, re, db, body, draw);
    var q := VerifyBody(Lookup(body, "aadhaar"), guess);
    assert Lookup(q, "aadhaar") == Lookup(body, "aadhaar") && Truthy(Lookup(q, "aadhaar"));
    assert Lookup(q, "otp") == Str(guess);
    assert |r.db.otps| == 1;
  }

  /** Codes are never consumed or expired: a request that verifies keeps verifying
      after any later code is issued, to anyone. */
  lemma {:induction false} VerificationPersists(fields: seq<Field>, re: Regex, db: Db, issue: Body, draw: nat, check: Body)
    requires draw < 900000
    requires VerifyOtp(db, check).reply.Accepted?
    ensures VerifyOtp(GenerateOtp(fields, re, db, issue, draw).db, check).reply.Accepted?
  {
    var db' := GenerateOtp(fields, re, db, issue, draw).db;
    var a, o := Lookup(check, "aadhaar"), Lookup(check, "otp");
    var i :| 0 <= i < |db.otps| && db.otps[i].aadhaar == a && Str(db.otps[i].otp) == o;
    assert db'.otps[i] == db.otps[i];
  }

  // ---------- PAN ----------

  /** `/^[A-Z]{5}[0-9]{4}[A-Z]{1}$/`: five capital letters, four digits, one capital letter. */
  predicate PanFormat(s: string) {
    && |s| == 10
    && (forall i | 0 <= i < 5 :: IsUpper(s[i]))
    && (forall i | 5 <= i < 9 :: IsDigit(s[i]))
    && IsUpper(s[9])
  }

  /** The format check accepts the canonical example and rejects a short code and
      the same code in lower case. */
  lemma PanFormatExamples()
    ensures PanFormat("ABCDE1234F")
    ensures !PanFormat("ABC123")
    ensures !PanFormat("abcde1234f")
  {
    assert !IsUpper("abcde1234f"[0]);
  }

  /** `POST /api/submit-pan`. */
  function SubmitPan(db: Db, body: Body): (r: Outcome)
    ensures r.db.connected == db.connected && r.db.otps == db.otps && r.db.registrations == db.registrations
    ensures var missing := !Truthy(Lookup(body, "aadhaar")) || !Truthy(Lookup(body, "orgType"))
              || !Truthy(Lookup(body, "pan")) || !Truthy(Lookup(body, "panName")) || !Truthy(Lookup(body, "panDob"));
            && (missing ==> r.reply == Rejected("All PAN fields are required"))
            && (!missing && !PanFormat(Stringify(Lookup(body, "pan"))) ==> r.reply == Rejected("Invalid PAN format"))
            && (r.reply.Accepted? <==> !missing && PanFormat(Stringify(Lookup(body, "pan"))) && db.connected)
    ensures r.reply.Accepted? ==>
              r.db.pans == db.pans + [PanRecord(Lookup(body, "aadhaar"), Lookup(body, "orgType"), Lookup(body, "pan"),
                                                Lookup(body, "panName"), Lookup(body, "panDob"),
                                                Truthy(Lookup(body, "panConsent")))]
    ensures !r.reply.Accepted? ==> r.db == db
    ensures r.reply.Accepted? || r.reply.Rejected? || r.reply.ServerError?
  {
    var aadhaar, orgType, pan := Lookup(body, "aadhaar"), Lookup(body, "orgType"), Lookup(body, "pan");
    var panName, panDob, panConsent := Lookup(body, "panName"), Lookup(body, "panDob"), Lookup(body, "panConsent");
    if !Truthy(aadhaar) || !Truthy(orgType) || !Truthy(pan) || !Truthy(panName) || !Truthy(panDob) then
      Outcome(Rejected("All PAN fields are required"), db)
    else if !PanFormat(Stringify(pan)) then Outcome(Rejected("Invalid PAN format"), db)
    else if !db.connected then Outcome(ServerError("Server error"), db)
    else
      var record := PanRecord(aadhaar, orgType, pan, panName, panDob, Truthy(panConsent));
      Outcome(Accepted("PAN details saved successfully"), db.(pans := db.pans + [record]))
  }

  // ---------- /api/submit ----------

  /** The `_id` a body carries, if any. */
  function IdOf(body: Body): Option<Value> {
    if Lookup(body, "_id") != Undefined then Some(Lookup(body, "_id")) else None
  }

  /** Some stored registration already carries `_id` value `v`; the store's unique
      index on `_id` then refuses another. */
  predicate IdTaken(registrations: seq<Registration>, v: Value) {
    exists i | 0 <= i < |registrations| :: Lookup(registrations[i].entries, "_id") == v
  }

  /** `POST /api/submit`: validation runs before, and outside, any store access.
      The body is spread into the inserted document, so its own `_id`, if any,
      becomes the record's id, and a duplicate makes the insert fail. `created`
      and `updated` are the two clock readings. */
  function Submit(fields: seq<Field>, re: Regex, db: Db, body: Body, created: int, updated: int): (r: Outcome)
    ensures r.db.connected == db.connected && r.db.otps == db.otps && r.db.pans == db.pans
    ensures Validate(fields, body, re) != Errors([]) ==> r.db == db && (r.reply.Invalid? || r.reply.Uncaught?)
    ensures r.reply.Saved? <==>
              && Validate(fields, body, re) == Errors([]) && db.connected
              && !(IdOf(body).Some? && IdTaken(db.registrations, IdOf(body).value))
    ensures r.reply.Saved? ==>
              && r.reply.id == (if IdOf(body).Some? then Given(IdOf(body).value) else Generated(|db.registrations|))
              && r.db.registrations == db.registrations + [Stamp(body, created, updated)]
    ensures !r.reply.Saved? ==> r.db == db
  {
    match Validate(fields, body, re)
    case Throws(p) => Outcome(Uncaught(p), db)
    case Errors(es) =>
      if es != [] then Outcome(Invalid(es), db)
      else if !db.connected then Outcome(SaveFailed, db)
      else
        var stored := db.(registrations := db.registrations + [Stamp(body, created, updated)]);
        match IdOf(body)
        case None => Outcome(Saved(Generated(|db.registrations|)), stored)
        case Some(v) => if IdTaken(db.registrations, v) then Outcome(SaveFailed, db) else Outcome(Saved(Given(v)), stored)
  }

  /** No two stored registrations carry the same `_id` of their own. */
  predicate UniqueGivenIds(registrations: seq<Registration>) {
    forall i, j | 0 <= i < j < |registrations| ::
      Lookup(registrations[i].entries, "_id") != Undefined ==>
        Lookup(registrations[i].entries, "_id") != Lookup(registrations[j].entries, "_id")
  }

  /** Every submission keeps the `_id`s of the stored registrations unique. */
  lemma SubmitKeepsIdsUnique(fields: seq<Field>, re: Regex, db: Db, body: Body, created: int, updated: int)
    requires UniqueGivenIds(db.registrations)
    ensures UniqueGivenIds(Submit(fields, re, db, body, created, updated).db.registrations)
  {
    var r := Submit(fields, re, db, body, created, updated);
    if r.reply.Saved? {
      var regs := r.db.registrations;
      var n := |db.registrations|;
      forall i, j | 0 <= i < j < |regs| && Lookup(regs[i].entries, "_id") != Undefined
        ensures Lookup(regs[i].entries, "_id") != Lookup(regs[j].entries, "_id")
      {
        assert regs[i] == db.registrations[i];
        if j < n {
          assert regs[j] == db.registrations[j];
        }
      }
    }
  }

  /** Posting the same body with an `_id` twice: the second insert fails with a
      500 and stores nothing. */
  lemma ResubmitWithIdFails(fields: seq<Field>, re: Regex, db: Db, body: Body, t1: int, t2: int, t3: int, t4: int)
    requires Submit(fields, re, db, body, t1, t2).reply.Saved? && IdOf(body).Some?
    ensures var again := Submit(fields, re, Submit(fields, re, db, body, t1, t2).db, body, t3, t4);
      again.reply == SaveFailed && again.db == Submit(fields, re, db, body, t1, t2).db
  {
    var regs := Submit(fields, re, db, body, t1, t2).db.registrations;
    assert Lookup(regs[|db.registrations|].entries, "_id") == IdOf(body).value;
  }

  /** Without an `_id` the same body can be stored again, under a fresh id. */
  lemma ResubmitWithoutIdSaves(fields: seq<Field>, re: Regex, db: Db, body: Body, t1: int, t2: int, t3: int, t4: int)
    requires Submit(fields, re, db, body, t1, t2).reply.Saved? && IdOf(body).None?
    ensures Submit(fields, re, Submit(fields, re, db, body, t1, t2).db, body, t3, t4).reply == Saved(Generated(|db.registrations| + 1))
  {
  }

  /** Timestamps a client sends never reach the store: a body carrying its own
      `createdAt` or `updatedAt` is stored exactly like the body without them. */
  lemma ClientTimestampsOverwritten(body: Body, k: string, v: Value, created: int, updated: int)
    requires k in Timestamps
    ensures Stamp(body[k := v], created, updated) == Stamp(body, created, updated)
    ensures Stamp(body, created, updated).createdAt == created && Stamp(body, created, updated).updatedAt == updated
  {
    assert body[k := v] - Timestamps == body - Timestamps;
  }
}

=== FILE: app.dfy ===
/**
 The three-step registration page: the form data it starts from, how an input
 event updates it (with the page's input names aliased to the server's body
 keys), and the step/message state machine driven by the server's answers.
 */
module App {
  import opened Wrappers
  import opened Js
  import opened FormSchema
  import opened Validator
  import opened Api
  import Enrich

  /** The page's `formData` object. */
  type FormData = map<string, Value>

  // ---------- initial form data ----------

  /** `f.type === "checkbox" ? false : ""` */
  function EmptyValue(f: Field): Value {
    if f.inputType == "checkbox" then Bool(false) else Str("")
  }

  /** The property `initialData[f.name]` writes: the printed name, so a descriptor
      without one writes the key "undefined". */
  function SlotOf(f: Field): string {
    Text(f.name)
  }

  /** The one key that `initialData[k] = v` on a plain object does not create: it
      reaches the `Object.prototype.__proto__` setter, which ignores a value that is
      not an object, such as "" or false. */
  const ProtoKey := "__proto__"

  /** The `forEach` over the descriptors, one assignment after another. */
  function SeedFields(fields: seq<Field>): (d: FormData)
    ensures forall i | 0 <= i < |fields| && SlotOf(fields[i]) != ProtoKey :: SlotOf(fields[i]) in d
    ensures ProtoKey !in d
    ensures forall k | k in d :: d[k] == Str("") || d[k] == Bool(false)
  {
    if fields == [] then map[]
    else
      var f := fields[|fields| - 1];
      var d := SeedFields(fields[..|fields| - 1]);
      if SlotOf(f) == ProtoKey then d else d[SlotOf(f) := EmptyValue(f)]
  }

  /** Only the descriptors' slots are written. */
  lemma {:induction false} SeedFieldsSlots(fields: seq<Field>, k: string)
    requires k in SeedFields(fields)
    ensures exists i | 0 <= i < |fields| :: SlotOf(fields[i]) == k
  {
    var p, f := fields[..|fields| - 1], fields[|fields| - 1];
    if SlotOf(f) != k {
      SeedFieldsSlots(p, k);
      var i :| 0 <= i < |p| && SlotOf(p[i]) == k;
      assert fields[i] == p[i];
    }
  }

  /** A slot written by several descriptors holds the value of the last of them. */
  lemma {:induction false} SeedFieldsLastWins(fields: seq<Field>, i: nat)
    requires i < |fields| && SlotOf(fields[i]) != ProtoKey
    requires forall j | i < j < |fields| :: SlotOf(fields[j]) != SlotOf(fields[i])
    ensures SeedFields(fields)[SlotOf(fields[i])] == EmptyValue(fields[i])
  {
    var p, f := fields[..|fields| - 1], fields[|fields| - 1];
    if i < |p| {
      assert p[i] == fields[i];
      assert forall j | i < j < |p| :: p[j] == fields[j];
      SeedFieldsLastWins(p, i);
    }
  }

  /** The five entries written after the loop, whatever the schema says. */
  const Forced: FormData := map["aadhaar" := Str(""), "name" := Str(""), "consent" := Bool(false), "otp" := Str(""), "pan" := Str("")]

  /** `initialData` once the schema has loaded: the forced entries win over the
      descriptors' slots, and every entry starts empty or unchecked. */
  function InitialFormData(schema: Schema): (d: FormData)
    ensures forall k | k in Forced :: k in d && d[k] == Forced[k]
    ensures forall i | 0 <= i < |FieldsOf(schema)| && SlotOf(FieldsOf(schema)[i]) != ProtoKey ::
      SlotOf(FieldsOf(schema)[i]) in d
    ensures ProtoKey !in d
    ensures forall k | k in d :: d[k] == Str("") || d[k] == Bool(false)
  {
    SeedFields(FieldsOf(schema)) + Forced
  }

  /** The initial data has no entry beyond the forced ones and the slots. */
  lemma InitialFormDataKeys(schema: Schema, k: string)
    requires k in InitialFormData(schema)
    ensures k in Forced || exists i | 0 <= i < |FieldsOf(schema)| :: SlotOf(FieldsOf(schema)[i]) == k
  {
    if k !in Forced {
      SeedFieldsSlots(FieldsOf(schema), k);
    }
  }

  /** A checkbox descriptor whose slot is not forced and not written again later
      starts unchecked; a text descriptor starts empty. */
  lemma InitialValueOfField(schema: Schema, i: nat)
    requires i < |FieldsOf(schema)| && SlotOf(FieldsOf(schema)[i]) != ProtoKey
    requires SlotOf(FieldsOf(schema)[i]) !in Forced
    requires forall j | i < j < |FieldsOf(schema)| :: SlotOf(FieldsOf(schema)[j]) != SlotOf(FieldsOf(schema)[i])
    ensures InitialFormData(schema)[SlotOf(FieldsOf(schema)[i])] == EmptyValue(FieldsOf(schema)[i])
  {
    SeedFieldsLastWins(FieldsOf(schema), i);
  }

  // ---------- handleChange ----------

  /** `newName`: the three `includes` tests run one after another on the original
      name, so the last matching one wins; any other name is kept. Case matters. */
  function AliasName(name: string): (n: string)
    ensures Contains(name, "chkDecarationA") ==> n == "consent"
    ensures !Contains(name, "chkDecarationA") && Contains(name, "txtownername") ==> n == "name"
    ensures !Contains(name, "chkDecarationA") && !Contains(name, "txtownername") && Contains(name, "txtadharno") ==> n == "aadhaar"
    ensures !Contains(name, "chkDecarationA") && !Contains(name, "txtownername") && !Contains(name, "txtadharno") ==> n == name
  {
    var n1 := if Contains(name, "txtadharno") then "aadhaar" else name;
    var n2 := if Contains(name, "txtownername") then "name" else n1;
    if Contains(name, "chkDecarationA") then "consent" else n2
  }

  /** The page's Aadhaar input, named like `ctl00$ContentPlaceHolder1$txtadharno`,
      writes the `aadhaar` entry: such a name holds neither a `k` nor a `w`, so
      neither later test fires. */
  lemma AadhaarInputAliased(name: string)
    requires Contains(name, "txtadharno") && 'k' !in name && 'w' !in name
    ensures AliasName(name) == "aadhaar"
  {
    LacksChar(name, "chkDecarationA", 2);
    LacksChar(name, "txtownername", 4);
  }

  /** The owner-name input, named like `ctl00$ContentPlaceHolder1$txtownername`,
      writes the `name` entry: without a `k` the consent test cannot fire. */
  lemma OwnerNameInputAliased(name: string)
    requires Contains(name, "txtownername") && 'k' !in name
    ensures AliasName(name) == "name"
  {
    LacksChar(name, "chkDecarationA", 2);
  }

  /** The fields of `e.target` the handler reads. */
  datatype Target = Target(name: string, value: Value, inputType: string, checked: bool)

  /** `setFormData({ ...formData, [newName]: type === "checkbox" ? checked : value })`:
      exactly one entry is written, and every other entry is as it was. */
  function HandleChange(d: FormData, e: Target): (r: FormData)
    ensures AliasName(e.name) in r
    ensures r[AliasName(e.name)] == if e.inputType == "checkbox" then Bool(e.checked) else e.value
    ensures forall k | k != AliasName(e.name) :: (k in r <==> k in d) && (k in d ==> r[k] == d[k])
  {
    d[AliasName(e.name) := if e.inputType == "checkbox" then Bool(e.checked) else e.value]
  }

  // ---------- request bodies ----------

  /** `JSON.stringify({ k: formData.k, ... })` parsed back by the server: the listed
      entries, with undefined ones left out. */
  function Pick(d: FormData, keys: seq<string>): (b: Body)
    ensures forall k :: k in b <==> k in keys && Lookup(d, k) != Undefined
    ensures forall k | k in b :: b[k] == Lookup(d, k)
  {
    if keys == [] then map[]
    else
      var rest := Pick(d, keys[1..]);
      if Lookup(d, keys[0]) == Undefined then rest else rest[keys[0] := Lookup(d, keys[0])]
  }

  /** Every key the server reads from a picked body reads as in the form data. */
  lemma PickLookup(d: FormData, keys: seq<string>, k: string)
    requires k in keys
    ensures Lookup(Pick(d, keys), k) == Lookup(d, k)
  {
  }

  function GenerateRequest(d: FormData): Body { Pick(d, ["aadhaar", "name", "consent"]) }
  function VerifyRequest(d: FormData): Body { Pick(d, ["aadhaar", "otp"]) }
  function PanRequest(d: FormData): Body { Pick(d, ["aadhaar", "orgType", "pan", "panName", "panDob", "panConsent"]) }

  // ---------- the wizard ----------

  datatype Wizard = Wizard(step: int, formData: FormData, otpMessage: string, errorMessage: string)

  /** What a handler gets back: a parsed JSON answer with `res.ok`, `data.error` and
      `data.otp`, or nothing (the request or the JSON parsing threw). */
  datatype Answer = Answer(ok: bool, error: Option<string>, otp: Value) | NoAnswer

  /** How the browser sees a server reply. */
  function AnswerOf(reply: Reply): (a: Answer)
    ensures a.Answer? && a.ok <==> reply.Valid? || reply.OtpSent? || reply.Accepted? || reply.Saved?
    ensures reply.OtpSent? ==> a == Answer(true, None, Str(reply.otp))
    ensures reply.Rejected? || reply.ServerError? ==> a.Answer? && a.error == Some(reply.error)
  {
    match reply
    case Valid => Answer(true, None, Undefined)
    case OtpSent(_, otp) => Answer(true, None, Str(otp))
    case Accepted(_) => Answer(true, None, Undefined)
    case Saved(_) => Answer(true, None, Undefined)
    case Invalid(_) => Answer(false, None, Undefined)
    case Rejected(e) => Answer(false, Some(e), Undefined)
    case ServerError(e) => Answer(false, Some(e), Undefined)
    case SaveFailed => Answer(false, None, Undefined)
    case Uncaught(_) => NoAnswer
  }

  /** `data.error || fallback` */
  function ErrorText(a: Answer, fallback: string): (s: string)
    requires a.Answer? && fallback != ""
    ensures s != ""
    ensures a.error.Some? && a.error.value != "" ==> s == a.error.value
  {
    OrElse(a.error, Some(fallback)).value
  }

  /** `handleGenerateOtp`: both messages are cleared first; success shows the code
      and moves to step 2; a failure keeps the step and sets an error. */
  function OnGenerateOtp(w: Wizard, a: Answer): (w': Wizard)
    ensures w'.formData == w.formData
    ensures a.Answer? && a.ok ==> w'.step == 2 && w'.errorMessage == "" && w'.otpMessage == "OTP: " + Stringify(a.otp)
    ensures !(a.Answer? && a.ok) ==> w'.step == w.step && w'.otpMessage == "" && w'.errorMessage != ""
    ensures a.NoAnswer? ==> w'.errorMessage == "Error generating OTP"
  {
    var cleared := w.(errorMessage := "", otpMessage := "");
    match a
    case NoAnswer => cleared.(errorMessage := "Error generating OTP")
    case Answer(ok, _, otp) =>
      if ok then cleared.(otpMessage := "OTP: " + Stringify(otp), step := 2)
      else cleared.(errorMessage := ErrorText(a, "Failed to generate OTP"))
  }

  /** `handleVerifyOtp`: success moves to step 3; a failure keeps the step and sets
      an error. The OTP message is left alone. */
  function OnVerifyOtp(w: Wizard, a: Answer): (w': Wizard)
    ensures w'.formData == w.formData && w'.otpMessage == w.otpMessage
    ensures a.Answer? && a.ok ==> w'.step == 3 && w'.errorMessage == ""
    ensures !(a.Answer? && a.ok) ==> w'.step == w.step && w'.errorMessage != ""
    ensures a.NoAnswer? ==> w'.errorMessage == "Error verifying OTP"
  {
    var cleared := w.(errorMessage := "");
    match a
    case NoAnswer => cleared.(errorMessage := "Error verifying OTP")
    case Answer(ok, _, _) =>
      if ok then cleared.(step := 3)
      else cleared.(errorMessage := ErrorText(a, "Invalid OTP"))
  }

  /** `handleSubmitPan`: success returns to step 1; a failure keeps the step and
      sets an error. */
  function OnSubmitPan(w: Wizard, a: Answer): (w': Wizard)
    ensures w'.formData == w.formData && w'.otpMessage == w.otpMessage
    ensures a.Answer? && a.ok ==> w'.step == 1 && w'.errorMessage == ""
    ensures !(a.Answer? && a.ok) ==> w'.step == w.step && w'.errorMessage != ""
    ensures a.NoAnswer? ==> w'.errorMessage == "Error submitting PAN"
  {
    var cleared := w.(errorMessage := "");
    match a
    case NoAnswer => cleared.(errorMessage := "Error submitting PAN")
    case Answer(ok, _, _) =>
      if ok then cleared.(step := 1)
      else cleared.(errorMessage := ErrorText(a, "Failed to submit PAN"))
  }

  /** The step only ever takes the values 1, 2 and 3. */
  lemma StepsStayInRange(w: Wizard, a: Answer)
    requires 1 <= w.step <= 3
    ensures 1 <= OnGenerateOtp(w, a).step <= 3
    ensures 1 <= OnVerifyOtp(w, a).step <= 3
    ensures 1 <= OnSubmitPan(w, a).step <= 3
  {
  }

  // ---------- the page against the server ----------

  /** A freshly loaded page cannot get an OTP: its Aadhaar entry is empty, so the
      server answers 400 and the page stays on step 1 with an error. */
  lemma FreshFormGetsNoOtp(schema: Schema, fields: seq<Field>, re: Regex, db: Db, draw: nat)
    requires draw < 900000
    ensures var d := InitialFormData(schema);
      var out := GenerateOtp(fields, re, db, GenerateRequest(d), draw);
      !out.reply.OtpSent? && out.db == db
      && var w' := OnGenerateOtp(Wizard(1, d, "", ""), AnswerOf(out.reply));
      w'.step == 1 && w'.errorMessage != ""
  {
    var d := InitialFormData(schema);
    PickLookup(d, ["aadhaar", "name", "consent"], "aadhaar");
  }

  /** The happy path: after the server issues a code for the page's data, typing
      that code into the OTP input and pressing verify reaches step 3. */
  lemma TypedOtpVerifies(fields: seq<Field>, re: Regex, db: Db, d: FormData, draw: nat)
    requires draw < 900000
    requires GenerateOtp(fields, re, db, GenerateRequest(d), draw).reply.OtpSent?
    ensures var out := GenerateOtp(fields, re, db, GenerateRequest(d), draw);
      var w := OnGenerateOtp(Wizard(1, d, "", ""), AnswerOf(out.reply));
      var typed := HandleChange(w.formData, Target("otp", Str(out.reply.otp), "text", false));
      var check := VerifyOtp(out.db, VerifyRequest(typed));
      w.step == 2 && check.reply.Accepted?
      && OnVerifyOtp(w.(formData := typed), AnswerOf(check.reply)).step == 3
  {
    var out := GenerateOtp(fields, re, db, GenerateRequest(d), draw);
    var otp := out.reply.otp;
    OtpInputNotAliased();
    var typed := HandleChange(d, Target("otp", Str(otp), "text", false));
    PickLookup(d, ["aadhaar", "name", "consent"], "aadhaar");
    PickLookup(typed, ["aadhaar", "otp"], "aadhaar");
    PickLookup(typed, ["aadhaar", "otp"], "otp");
    var body := VerifyRequest(typed);
    assert Lookup(body, "otp") == Str(otp);
    assert Lookup(body, "aadhaar") == Lookup(d, "aadhaar");
    var n := |db.otps|;
    assert out.db.otps[n].aadhaar == Lookup(body, "aadhaar") && Str(out.db.otps[n].otp) == Lookup(body, "otp");
  }

  /** The OTP input's name is kept as it is. */
  lemma OtpInputNotAliased()
    ensures AliasName("otp") == "otp"
  {
    LacksChar("otp", "chkDecarationA", 0);
    LacksChar("otp", "txtownername", 4);
    LacksChar("otp", "txtadharno", 4);
  }

  /** Everything the server's PAN check accepts also passes the browser's pattern. */
  lemma StrictPanIsLoose(s: string)
    requires PanFormat(s)
    ensures Enrich.LoosePanFormat(s)
  {
  }

  /** The browser's inferred PAN pattern accepts lower-case letters, the server's
      format check does not: a lower-case PAN passes the browser's inferred pattern
      and is then refused by `/api/submit-pan`. */
  lemma PanCaseDiscrepancy(db: Db, body: Body)
    requires Lookup(body, "pan") == Str("abcde1234f")
    requires Truthy(Lookup(body, "aadhaar")) && Truthy(Lookup(body, "orgType"))
    requires Truthy(Lookup(body, "panName")) && Truthy(Lookup(body, "panDob"))
    ensures Enrich.LoosePanFormat("abcde1234f")
    ensures SubmitPan(db, body).reply == Rejected("Invalid PAN format")
  {
    assert !IsUpper("abcde1234f"[0]);
  }
}

=== FILE: enrich.dfy ===
/**
 `enrichSchema`: the browser fills in a default pattern for every descriptor that
 has none, inferred from keywords in its lowercased key. Nothing else about a
 descriptor changes.
 */
module Enrich {
  import opened Wrappers
  import opened Js
  import opened FormSchema

  /** `^\d{12}$` */
  const AadhaarPattern: string := "^\\d{12}$"
  /** `^[A-Za-z]{5}[0-9]{4}[A-Za-z]{1}$`: note the letters may be lower case. */
  const PanPattern: string := "^[A-Za-z]{5}[0-9]{4}[A-Za-z]{1}$"
  /** `^\d{6}$` */
  const SixDigitPattern: string := "^\\d{6}$"

  predicate IsLetter(c: char) { IsUpper(c) || IsLower(c) }

  /** The strings `PanPattern` accepts: five ASCII letters of either case, four
      digits and one more letter. */
  predicate LoosePanFormat(s: string) {
    && |s| == 10
    && (forall i | 0 <= i < 5 :: IsLetter(s[i]))
    && (forall i | 5 <= i < 9 :: IsDigit(s[i]))
    && IsLetter(s[9])
  }

  /** One `if (/w1|w2|.../.test(key)) out.pattern = p;` statement. */
  datatype Rule = Rule(words: seq<string>, pattern: string)

  /** The four statements, in source order. */
  const Rules: seq<Rule> := [
    Rule(["aadhaar", "adhar", "aadhar", "txtadharno"], AadhaarPattern),
    Rule(["pan", "pancard", "txtpan"], PanPattern),
    Rule(["otp"], SixDigitPattern),
    Rule(["pin", "pincode", "postal"], SixDigitPattern)
  ]

  predicate Fires(rule: Rule, key: string) {
    ContainsAny(key, rule.words)
  }

  /** Running the statements one after another without `else`, starting from
      `current`: a later matching rule overwrites an earlier one, so the pattern of
      the LAST matching rule wins, and with no match `current` stays. */
  function ApplyRules(rules: seq<Rule>, key: string, current: string): (p: string)
    ensures (forall i | 0 <= i < |rules| :: !Fires(rules[i], key)) ==> p == current
    ensures forall i | 0 <= i < |rules| && Fires(rules[i], key) ::
      (forall j | i < j < |rules| :: !Fires(rules[j], key)) ==> p == rules[i].pattern
  {
    if rules == [] then current
    else
      var next := if Fires(rules[0], key) then rules[0].pattern else current;
      var p := ApplyRules(rules[1..], key, next);
      assert forall i | 1 <= i < |rules| :: rules[i] == rules[1..][i - 1];
      p
  }

  /** The pattern inferred for a lowercased key ("" when no rule fires). */
  function InferPattern(key: string): string {
    ApplyRules(Rules, key, "")
  }

  /** The inference written as a priority list: a six-digit key word beats a PAN
      word, which beats an Aadhaar word. */
  lemma InferPatternPriority(key: string)
    ensures InferPattern(key) ==
      if Fires(Rules[2], key) || Fires(Rules[3], key) then SixDigitPattern
      else if Fires(Rules[1], key) then PanPattern
      else if Fires(Rules[0], key) then AadhaarPattern
      else ""
  {
  }

  /** A key holding both "aadhaar" and "pan", and no six-digit word ("otp",
      "pin", "pincode", "postal"), gets the PAN pattern: the later rule overrides. */
  lemma AadhaarAndPanGetsPan(k: string)
    requires Contains(k, "aadhaar") && Contains(k, "pan")
    requires !Fires(Rules[2], k) && !Fires(Rules[3], k)
    ensures InferPattern(k) == PanPattern
  {
    assert Fires(Rules[1], k) by {
      ContainsAnyWord(k, Rules[1].words, 0);
    }
    InferPatternPriority(k);
  }

  /** Any key holding "otp" gets the six-digit pattern, whatever else it holds. */
  lemma OtpGetsSixDigits(k: string)
    requires Contains(k, "otp")
    ensures InferPattern(k) == SixDigitPattern
  {
    InferPatternPriority(k);
    ContainsAnyWord(k, Rules[2].words, 0);
  }

  /** The copy `out` of one descriptor: its pattern if truthy, otherwise the
      inferred one; every other attribute as it was. */
  function EnrichField(f: Field): (g: Field)
    ensures g.(pattern := f.pattern) == f
    ensures f.pattern != "" ==> g == f
    ensures f.pattern == "" ==> g.pattern == InferPattern(Lower(KeyText(f)))
  {
    if f.pattern != "" then f else f.(pattern := InferPattern(Lower(KeyText(f))))
  }

  /** `(json.fields || []).map(...)` */
  function EnrichFields(fields: seq<Field>): (gs: seq<Field>)
    ensures |gs| == |fields|
    ensures forall i | 0 <= i < |fields| :: gs[i] == EnrichField(fields[i])
  {
    if fields == [] then [] else [EnrichField(fields[0])] + EnrichFields(fields[1..])
  }

  /** `{ ...json, fields }`: the enriched schema always has a field list, of the
      same length and order, differing from the input at most in patterns. */
  function EnrichSchema(json: Schema): (r: Schema)
    ensures r.fields.Some?
    ensures |FieldsOf(r)| == |FieldsOf(json)|
    ensures forall i | 0 <= i < |FieldsOf(json)| ::
      FieldsOf(r)[i].(pattern := FieldsOf(json)[i].pattern) == FieldsOf(json)[i]
    ensures forall i | 0 <= i < |FieldsOf(json)| && FieldsOf(json)[i].pattern != "" ::
      FieldsOf(r)[i] == FieldsOf(json)[i]
  {
    Schema(Some(EnrichFields(FieldsOf(json))))
  }

  /** Enriching an enriched schema changes nothing more. */
  lemma {:induction false} EnrichIdempotent(json: Schema)
    ensures EnrichSchema(EnrichSchema(json)) == EnrichSchema(json)
  {
    var fs := FieldsOf(EnrichSchema(json));
    var gs := FieldsOf(EnrichSchema(EnrichSchema(json)));
    forall i | 0 <= i < |fs| ensures gs[i] == fs[i] {
      var f := FieldsOf(json)[i];
      assert fs[i] == EnrichField(f);
      assert KeyText(fs[i]) == KeyText(f);
    }
    assert gs == fs;
  }

  /** A missing field list is enriched to an empty one. */
  lemma EnrichMissingFields()
    ensures EnrichSchema(Schema(None)) == Schema(Some([]))
  {
  }
}

=== FILE: formschema.dfy ===
/**
 The declarative form description shared by the server and the browser: an
 ordered list of field descriptors, loaded once and never changed.
 */
module FormSchema {
  import opened Wrappers
  import opened Js

  /** One form input. `name` and `id` may be absent (`undefined`); for the other
      string attributes only truthiness and content matter, so the empty string
      stands for an absent one. `maxlength` and `step` keep whatever JSON value
      the schema file holds. */
  datatype Field = Field(
    name: Option<string>,
    id: Option<string>,
    labelText: string,
    placeholder: string,
    inputType: string,
    tag: string,
    required: bool,
    pattern: string,
    maxlength: Value,
    step: Value)

  /** A schema document; `fields` may be missing. */
  datatype Schema = Schema(fields: Option<seq<Field>>)

  /** `schema.fields || []` */
  function FieldsOf(s: Schema): seq<Field> {
    s.fields.GetOr([])
  }

  /** The schema the server runs with: the parsed file, or `{ fields: [] }` when the
      file is missing or cannot be read or parsed (None). */
  function LoadSchema(file: Option<Schema>): Schema {
    match file
    case Some(s) => s
    case None => Schema(Some([]))
  }

  /** `f.name || f.id`: the key a descriptor's value is stored under. */
  function Key(f: Field): Option<string> {
    OrElse(f.name, f.id)
  }

  /** `f.name || f.id || ""` */
  function KeyText(f: Field): string {
    Key(f).GetOr("")
  }

  /** `data[k]` on a JSON object. */
  function Lookup(data: map<string, Value>, k: string): Value {
    if k in data then data[k] else Undefined
  }

  /** No two descriptors share a key (names are unique in a well-formed schema). */
  predicate UniqueKeys(fields: seq<Field>) {
    forall i, j | 0 <= i < j < |fields| :: Key(fields[i]) != Key(fields[j])
  }
}

=== FILE: grouping.dfy ===
/**
 Grouping a list into buckets by a string key, the way a JavaScript object used as
 a map is filled by `forEach` and read back: `if (!map[k]) map[k] = []; map[k].push(x)`.
 The key function is a parameter, so the facts hold for any key.
 */
module Grouping {
  import opened StringOrder
  import opened Seqs

  /** One entry `map[key]`. */
  datatype Group<T> = Group(key: string, members: seq<T>)

  /** Appends `x` to the entry of its key, creating the entry at the end if needed. */
  function Push<T>(groups: seq<Group<T>>, x: T, key: T -> string): seq<Group<T>> {
    if groups == [] then [Group(key(x), [x])]
    else if groups[0].key == key(x) then [groups[0].(members := groups[0].members + [x])] + groups[1..]
    else [groups[0]] + Push(groups[1..], x, key)
  }

  /** The object after `xs.forEach(push)`, entries in creation order. */
  function Collect<T>(xs: seq<T>, key: T -> string): seq<Group<T>> {
    if xs == [] then [] else Push(Collect(xs[..|xs| - 1], key), xs[|xs| - 1], key)
  }

  /** `Object.keys(map)` */
  function Keys<T>(groups: seq<Group<T>>): (ks: seq<string>)
    ensures |ks| == |groups|
    ensures forall i | 0 <= i < |groups| :: ks[i] == groups[i].key
  {
    if groups == [] then [] else [groups[0].key] + Keys(groups[1..])
  }

  /** `map[k]`, or nothing when the key is absent. */
  function Members<T>(groups: seq<Group<T>>, k: string): seq<T> {
    if groups == [] then []
    else if groups[0].key == k then groups[0].members
    else Members(groups[1..], k)
  }

  /** Reference: the elements whose key is `k`, in input order. */
  function WithKey<T>(xs: seq<T>, key: T -> string, k: string): (r: seq<T>)
    ensures forall i | 0 <= i < |r| :: key(r[i]) == k
  {
    if xs == [] then []
    else
      var last := xs[|xs| - 1];
      WithKey(xs[..|xs| - 1], key, k) + (if key(last) == k then [last] else [])
  }

  lemma {:induction false} PushMembers<T>(groups: seq<Group<T>>, x: T, key: T -> string, k: string)
    ensures Members(Push(groups, x, key), k) == Members(groups, k) + (if key(x) == k then [x] else [])
  {
    if groups != [] && groups[0].key != key(x) {
      PushMembers(groups[1..], x, key, k);
    }
  }

  lemma {:induction false} PushKeys<T>(groups: seq<Group<T>>, x: T, key: T -> string)
    ensures key(x) in Keys(groups) ==> Keys(Push(groups, x, key)) == Keys(groups)
    ensures key(x) !in Keys(groups) ==> Keys(Push(groups, x, key)) == Keys(groups) + [key(x)]
  {
    if groups != [] && groups[0].key != key(x) {
      PushKeys(groups[1..], x, key);
    }
  }

  lemma {:induction false} CollectMembers<T>(xs: seq<T>, key: T -> string, k: string)
    ensures Members(Collect(xs, key), k) == WithKey(xs, key, k)
  {
    if xs != [] {
      CollectMembers(xs[..|xs| - 1], key, k);
      PushMembers(Collect(xs[..|xs| - 1], key), xs[|xs| - 1], key, k);
    }
  }

  /** The keys of the object are the keys of the elements, each once. */
  lemma {:induction false} CollectKeysDistinct<T>(xs: seq<T>, key: T -> string)
    ensures Distinct(Keys(Collect(xs, key)))
  {
    if xs != [] {
      var p, x := xs[..|xs| - 1], xs[|xs| - 1];
      CollectKeysDistinct(p, key);
      var ks := Keys(Collect(p, key));
      PushKeys(Collect(p, key), x, key);
      var ks' := Keys(Collect(xs, key));
      if key(x) !in ks {
        AppendFreshDistinct(ks, key(x));
      }
    }
  }

  lemma AppendFreshDistinct(ks: seq<string>, k: string)
    requires Distinct(ks) && k !in ks
    ensures Distinct(ks + [k])
  {
    var ks' := ks + [k];
    forall i | 0 <= i < |ks'| ensures multiset(ks')[ks'[i]] == 1 {
      if i < |ks| {
        assert ks'[i] == ks[i];
      }
    }
  }

  /** Every element's key is a key of the object. */
  lemma {:induction false} CollectKeysCover<T>(xs: seq<T>, key: T -> string, i: nat)
    requires i < |xs|
    ensures key(xs[i]) in Keys(Collect(xs, key))
  {
    var n := |xs|;
    var p, x := xs[..n - 1], xs[n - 1];
    if i < n - 1 {
      assert xs[i] == p[i];
      CollectKeysCover(p, key, i);
    }
    PushKeysGrow(Collect(p, key), x, key, key(xs[i]));
  }

  /** Pushing keeps every key and adds the pushed element's. */
  lemma PushKeysGrow<T>(groups: seq<Group<T>>, x: T, key: T -> string, k: string)
    requires k in Keys(groups) || k == key(x)
    ensures k in Keys(Push(groups, x, key))
  {
    PushKeys(groups, x, key);
  }

  /** No key of the object has an empty entry. */
  lemma {:induction false} CollectKeysInhabited<T>(xs: seq<T>, key: T -> string)
    ensures forall j | 0 <= j < |Keys(Collect(xs, key))| :: WithKey(xs, key, Keys(Collect(xs, key))[j]) != []
  {
    if xs != [] {
      var p, x := xs[..|xs| - 1], xs[|xs| - 1];
      CollectKeysInhabited(p, key);
      var ks := Keys(Collect(p, key));
      PushKeys(Collect(p, key), x, key);
      var ks' := Keys(Collect(xs, key));
      forall j | 0 <= j < |ks'| ensures WithKey(xs, key, ks'[j]) != [] {
        if j < |ks| {
          assert ks'[j] == ks[j];
        }
      }
    }
  }

  /** `keys.map((k) => map[k])` */
  function Arrange<T>(groups: seq<Group<T>>, keys: seq<string>): (r: seq<seq<T>>)
    ensures |r| == |keys|
    ensures forall i | 0 <= i < |keys| :: r[i] == Members(groups, keys[i])
  {
    if keys == [] then [] else [Members(groups, keys[0])] + Arrange(groups, keys[1..])
  }

  /** The elements of every key in `keys`, key after key. */
  function FlatWith<T>(xs: seq<T>, key: T -> string, keys: seq<string>): seq<T> {
    if keys == [] then [] else WithKey(xs, key, keys[0]) + FlatWith(xs, key, keys[1..])
  }

  lemma {:induction false} FlattenArrange<T>(xs: seq<T>, key: T -> string, keys: seq<string>)
    ensures Flatten(Arrange(Collect(xs, key), keys)) == FlatWith(xs, key, keys)
  {
    if keys != [] {
      FlattenArrange(xs, key, keys[1..]);
      CollectMembers(xs, key, keys[0]);
      assert Arrange(Collect(xs, key), keys)[1..] == Arrange(Collect(xs, key), keys[1..]);
    }
  }

  /** How many times `k` occurs in `keys`. */
  function Occurrences(keys: seq<string>, k: string): nat {
    if keys == [] then 0 else (if keys[0] == k then 1 else 0) + Occurrences(keys[1..], k)
  }

  lemma {:induction false} OccurrencesMultiplicity(keys: seq<string>, k: string)
    ensures Occurrences(keys, k) == multiset(keys)[k]
  {
    if keys != [] {
      OccurrencesMultiplicity(keys[1..], k);
      assert keys == [keys[0]] + keys[1..];
    }
  }

  lemma {:induction false} FlatWithEmpty<T>(key: T -> string, keys: seq<string>)
    ensures FlatWith([], key, keys) == []
  {
    if keys != [] {
      FlatWithEmpty(key, keys[1..]);
    }
  }

  lemma {:induction false} WithKeySnoc<T>(p: seq<T>, x: T, key: T -> string, k: string)
    ensures WithKey(p + [x], key, k) == WithKey(p, key, k) + (if key(x) == k then [x] else [])
  {
    var xs := p + [x];
    assert xs[..|xs| - 1] == p;
  }

  /** Adding one element adds it once for every occurrence of its key. */
  lemma {:induction false} FlatWithSnoc<T>(p: seq<T>, x: T, key: T -> string, keys: seq<string>)
    ensures multiset(FlatWith(p + [x], key, keys))
            == multiset(FlatWith(p, key, keys)) + multiset{}[x := Occurrences(keys, key(x))]
  {
    if keys != [] {
      var k, rest := keys[0], keys[1..];
      FlatWithSnoc(p, x, key, rest);
      WithKeySnoc(p, x, key, k);
      var n := Occurrences(rest, key(x));
      var a, b, c := WithKey(p, key, k), FlatWith(p, key, rest), FlatWith(p + [x], key, rest);
      var m: multiset<T> := multiset{}[x := n];
      assert FlatWith(p, key, keys) == a + b;
      if key(x) == k {
        assert FlatWith(p + [x], key, keys) == (a + [x]) + c;
        MultisetRegroup(a, b, [x], c, m);
        Bump(x, n);
        assert Occurrences(keys, key(x)) == n + 1;
      } else {
        assert FlatWith(p + [x], key, keys) == (a + []) + c;
        MultisetRegroup(a, b, [], c, m);
        assert Occurrences(keys, key(x)) == n;
      }
    }
  }

  lemma Bump<T>(x: T, n: nat)
    ensures multiset{}[x := n + 1] == multiset([x]) + multiset{}[x := n]
  {
  }

  lemma MultisetRegroup<T>(a: seq<T>, b: seq<T>, e: seq<T>, c: seq<T>, m: multiset<T>)
    requires multiset(c) == multiset(b) + m
    ensures multiset((a + e) + c) == multiset(a + b) + (multiset(e) + m)
  {
  }

  /** When every element's key occurs exactly once among `keys`, the buckets of
      `keys` together are a rearrangement of the elements. */
  lemma {:induction false} FlatWithPermutes<T>(xs: seq<T>, key: T -> string, keys: seq<string>)
    requires forall i | 0 <= i < |xs| :: Occurrences(keys, key(xs[i])) == 1
    ensures multiset(FlatWith(xs, key, keys)) == multiset(xs)
  {
    if xs == [] {
      FlatWithEmpty(key, keys);
    } else {
      var n := |xs|;
      var p, x := xs[..n - 1], xs[n - 1];
      assert xs == p + [x];
      assert forall i | 0 <= i < |p| :: p[i] == xs[i];
      FlatWithPermutes(p, key, keys);
      FlatWithSnoc(p, x, key, keys);
      assert multiset{}[x := 1] == multiset{x};
    }
  }

  /** All of `xs` when every element has key `k`. */
  lemma {:induction false} WithKeyAll<T>(xs: seq<T>, key: T -> string, k: string)
    requires forall i | 0 <= i < |xs| :: key(xs[i]) == k
    ensures WithKey(xs, key, k) == xs
  {
    if xs != [] {
      var n := |xs|;
      var p, x := xs[..n - 1], xs[n - 1];
      forall i | 0 <= i < |p| ensures key(p[i]) == k {
        assert p[i] == xs[i];
      }
      WithKeyAll(p, key, k);
      assert WithKey(xs, key, k) == p + [x];
      assert p + [x] == xs;
    }
  }

  /** The sorted keys of the object filled from `xs`. */
  function SortedKeys<T>(xs: seq<T>, key: T -> string): seq<string> {
    Sort(Keys(Collect(xs, key)))
  }

  lemma SortedKeysFacts<T>(xs: seq<T>, key: T -> string)
    ensures Distinct(SortedKeys(xs, key))
    ensures forall i, j | 0 <= i < j < |SortedKeys(xs, key)| :: LexLt(SortedKeys(xs, key)[i], SortedKeys(xs, key)[j])
    ensures forall k :: k in SortedKeys(xs, key) <==> k in Keys(Collect(xs, key))
  {
    var ks := Keys(Collect(xs, key));
    var keys := SortedKeys(xs, key);
    CollectKeysDistinct(xs, key);
    DistinctPermutation(ks, keys);
    SortedDistinctAscending(keys);
    forall k ensures k in keys <==> k in ks {
      assert k in keys <==> k in multiset(keys);
      assert k in ks <==> k in multiset(ks);
    }
  }

  lemma {:induction false} BucketsAreWithKey<T>(xs: seq<T>, key: T -> string, i: nat)
    requires i < |SortedKeys(xs, key)|
    ensures var b := Members(Collect(xs, key), SortedKeys(xs, key)[i]);
      b != [] && b == WithKey(xs, key, key(b[0])) && key(b[0]) == SortedKeys(xs, key)[i]
  {
    var keys := SortedKeys(xs, key);
    SortedKeysFacts(xs, key);
    CollectKeysInhabited(xs, key);
    var ks := Keys(Collect(xs, key));
    assert keys[i] in ks;
    var j :| 0 <= j < |ks| && ks[j] == keys[i];
    CollectMembers(xs, key, keys[i]);
  }

  lemma {:induction false} BucketsPermute<T>(xs: seq<T>, key: T -> string)
    ensures multiset(Flatten(Arrange(Collect(xs, key), SortedKeys(xs, key)))) == multiset(xs)
  {
    var keys := SortedKeys(xs, key);
    SortedKeysFacts(xs, key);
    FlattenArrange(xs, key, keys);
    forall i | 0 <= i < |xs| ensures Occurrences(keys, key(xs[i])) == 1 {
      CollectKeysCover(xs, key, i);
      OccurrencesMultiplicity(keys, key(xs[i]));
      var j :| 0 <= j < |keys| && keys[j] == key(xs[i]);
    }
    FlatWithPermutes(xs, key, keys);
  }

  /** `Object.keys(map).sort().map((k) => map[k])` after filling `map` from `xs`:
      the buckets are a rearrangement of `xs`; each bucket holds all elements of one
      key in input order; the buckets ascend strictly by key. */
  function GroupSorted<T>(xs: seq<T>, key: T -> string): (r: seq<seq<T>>)
    ensures multiset(Flatten(r)) == multiset(xs)
    ensures forall i | 0 <= i < |r| :: r[i] != [] && r[i] == WithKey(xs, key, key(r[i][0]))
    ensures forall i, j | 0 <= i < j < |r| :: LexLt(key(r[i][0]), key(r[j][0]))
  {
    var keys := SortedKeys(xs, key);
    var r := Arrange(Collect(xs, key), keys);
    BucketsPermute(xs, key);
    SortedKeysFacts(xs, key);
    forall i | 0 <= i < |r| ensures r[i] != [] && r[i] == WithKey(xs, key, key(r[i][0])) && key(r[i][0]) == keys[i] {
      BucketsAreWithKey(xs, key, i);
    }
    r
  }
}

=== FILE: js.dfy ===
/**
 The slice of JavaScript semantics the form core relies on: JSON values as they
 arrive in a request body or a schema attribute, truthiness, `||` on optional
 strings, `String(v)`, decimal text of numbers, `parseInt(v, 10)`, ASCII case
 conversion and substring tests.
 */
module Js {
  import opened Wrappers

  /** A JSON value. `Undefined` stands for an absent property. Objects, arrays and
      non-integral numbers are not modelled. A JavaScript number is a double: `Num`
      is exact for the integers a double holds, and `String` prints it positionally
      only below `ExponentThreshold` in magnitude. */
  datatype Value = Undefined | Null | Bool(b: bool) | Num(n: int) | Str(s: string)

  /** JavaScript truthiness of a value. */
  predicate Truthy(v: Value) {
    match v
    case Undefined => false
    case Null => false
    case Bool(b) => b
    case Num(n) => n != 0
    case Str(s) => s != ""
  }

  /** `a || b` where both sides are strings or `undefined`. */
  function OrElse(a: Option<string>, b: Option<string>): Option<string> {
    if a.Some? && a.value != "" then a else b
  }

  /** How a possibly undefined string prints in a template literal, and the
      property key it denotes in `obj[k]`. */
  function Text(o: Option<string>): string {
    match o
    case Some(s) => s
    case None => "undefined"
  }

  // ---------- characters ----------

  predicate IsDigit(c: char) { '0' <= c <= '9' }
  predicate IsUpper(c: char) { 'A' <= c <= 'Z' }
  predicate IsLower(c: char) { 'a' <= c <= 'z' }

  predicate AllDigits(s: string) {
    forall i | 0 <= i < |s| :: IsDigit(s[i])
  }

  /** White space as `String.prototype.trim` and `parseInt` skip it. */
  predicate IsSpace(c: char) {
    || c == ' ' || c == '\t' || c == '\n' || c == '\r'
    || c == '\U{000B}' || c == '\U{000C}' || c == '\U{00A0}' || c == '\U{1680}'
    || ('\U{2000}' <= c <= '\U{200A}')
    || c == '\U{2028}' || c == '\U{2029}' || c == '\U{202F}' || c == '\U{205F}'
    || c == '\U{3000}' || c == '\U{FEFF}'
  }

  /** `toLowerCase` on one character, for the ASCII letters. */
  function LowerChar(c: char): char {
    if IsUpper(c) then (c as int + 32) as char else c
  }

  /** `toUpperCase` on one character, for the ASCII letters. */
  function UpperChar(c: char): char {
    if IsLower(c) then (c as int - 32) as char else c
  }

  /** `s.toLowerCase()`, restricted to the ASCII letters. */
  function Lower(s: string): (r: string)
    ensures |r| == |s|
    ensures forall i | 0 <= i < |s| :: r[i] == LowerChar(s[i])
  {
    seq(|s|, i requires 0 <= i < |s| => LowerChar(s[i]))
  }

  /** `s.includes(w)`, i.e. `w` occurs in `s` as a contiguous block. */
  predicate Contains(s: string, w: string) {
    w <= s || (s != [] && Contains(s[1..], w))
  }

  /** The regular expression `w1|w2|...` (no anchors) matches `s`. */
  predicate ContainsAny(s: string, ws: seq<string>) {
    ws != [] && (Contains(s, ws[0]) || ContainsAny(s, ws[1..]))
  }

  /** One word of the alternation occurring suffices. */
  lemma {:induction false} ContainsAnyWord(s: string, ws: seq<string>, i: nat)
    requires i < |ws| && Contains(s, ws[i])
    ensures ContainsAny(s, ws)
  {
    if i > 0 {
      ContainsAnyWord(s, ws[1..], i - 1);
    }
  }

  /** The alternation fails when every word is absent. */
  lemma {:induction false} ContainsNoWord(s: string, ws: seq<string>)
    requires forall i | 0 <= i < |ws| :: !Contains(s, ws[i])
    ensures !ContainsAny(s, ws)
  {
    if ws != [] {
      assert forall i | 0 <= i < |ws[1..]| :: ws[1..][i] == ws[i + 1];
      ContainsNoWord(s, ws[1..]);
    }
  }

  lemma {:induction false} ContainsAt(s: string, w: string, i: nat)
    requires i + |w| <= |s| && s[i..i + |w|] == w
    ensures Contains(s, w)
  {
    if i > 0 {
      assert s[1..][i - 1..i - 1 + |w|] == s[i..i + |w|];
      ContainsAt(s[1..], w, i - 1);
    } else {
      assert w <= s;
    }
  }

  /** Any string containing `s` as a block at position `i` contains every word `s` contains. */
  lemma {:induction false} ContainsInside(s: string, w: string, t: string, i: nat)
    requires Contains(s, w)
    requires i + |s| <= |t| && t[i..i + |s|] == s
    ensures Contains(t, w)
  {
    if w <= s {
      assert t[i..i + |w|] == s[..|w|];
      ContainsAt(t, w, i);
    } else {
      assert t[i + 1..i + 1 + |s[1..]|] == s[1..];
      ContainsInside(s[1..], w, t, i + 1);
    }
  }

  /** A word holding a character that `s` lacks does not occur in `s`. */
  lemma {:induction false} LacksChar(s: string, w: string, i: nat)
    requires i < |w| && w[i] !in s
    ensures !Contains(s, w)
  {
    if i < |s| {
      assert s[i] in s;
    }
    if s != [] {
      assert forall k | 0 <= k < |s[1..]| :: s[1..][k] in s;
      LacksChar(s[1..], w, i);
    }
  }

  // ---------- decimal text ----------

  function Digit(d: nat): (c: char)
    requires d < 10
    ensures IsDigit(c)
  {
    (48 + d) as char
  }

  function DigitValue(c: char): (d: nat)
    requires IsDigit(c)
    ensures d < 10
  {
    c as int - 48
  }

  function Pow10(k: nat): (p: nat)
    ensures p >= 1
  {
    if k == 0 then 1 else 10 * Pow10(k - 1)
  }

  /** `n.toString()` for a natural number: the shortest decimal text of `n`. */
  function NatText(n: nat): (s: string)
    ensures |s| >= 1 && AllDigits(s)
    ensures s[0] == '0' ==> n == 0
    decreases n
  {
    if n < 10 then [Digit(n)] else NatText(n / 10) + [Digit(n % 10)]
  }

  /** The number a string of decimal digits denotes. */
  function DigitsValue(s: string): nat
    requires AllDigits(s)
  {
    if s == [] then 0 else DigitsValue(s[..|s| - 1]) * 10 + DigitValue(s[|s| - 1])
  }

  /** Reading back the decimal text of `n` yields `n`. */
  lemma {:induction false} NatTextRoundTrip(n: nat)
    ensures DigitsValue(NatText(n)) == n
  {
    var s := NatText(n);
    if n >= 10 {
      NatTextRoundTrip(n / 10);
      assert s[..|s| - 1] == NatText(n / 10);
    }
  }

  /** A number with k+1 decimal digits prints as k+1 characters. */
  lemma {:induction false} NatTextLength(n: nat, k: nat)
    requires Pow10(k) <= n < Pow10(k + 1)
    ensures |NatText(n)| == k + 1
  {
    if k > 0 {
      NatTextLength(n / 10, k - 1);
    }
  }

  /** A number of at least 10^k prints with more than k digits. */
  lemma {:induction false} NatTextAtLeast(n: nat, k: nat)
    requires Pow10(k) <= n
    ensures |NatText(n)| >= k + 1
  {
    if k > 0 {
      assert Pow10(k - 1) <= n / 10;
      NatTextAtLeast(n / 10, k - 1);
    }
  }

  /** From 1e21 on, `String(n)` switches to exponent notation ("1e+21"). */
  const ExponentThreshold: nat := 1_000_000_000_000_000_000_000

  /** `Number.MAX_SAFE_INTEGER`: up to 2^53 - 1 every integer is a double, so
      `parseInt` of decimal text up to it is exact. */
  const MaxSafeInteger: nat := 9_007_199_254_740_991

  /** `${n}` for an integer below `ExponentThreshold` in magnitude. */
  function IntText(n: int): string {
    if n < 0 then "-" + NatText(-n) else NatText(n)
  }

  /** `String(v)`. */
  function Stringify(v: Value): string {
    match v
    case Undefined => "undefined"
    case Null => "null"
    case Bool(b) => if b then "true" else "false"
    case Num(n) => IntText(n)
    case Str(s) => s
  }

  // ---------- parseInt ----------

  /** `s` without its leading white space. */
  function TrimStart(s: string): (r: string)
    ensures |r| <= |s| && r == s[|s| - |r|..]
    ensures r != [] ==> !IsSpace(r[0])
    ensures forall i | 0 <= i < |s| - |r| :: IsSpace(s[i])
  {
    if s != [] && IsSpace(s[0]) then TrimStart(s[1..]) else s
  }

  /** The longest prefix of `s` made of decimal digits. */
  function LeadingDigits(s: string): (r: string)
    ensures r <= s && AllDigits(r)
    ensures |r| < |s| ==> !IsDigit(s[|r|])
  {
    if s != [] && IsDigit(s[0]) then [s[0]] + LeadingDigits(s[1..]) else []
  }

  /** `parseInt(v, 10)`; None stands for NaN. */
  function ParseInt(v: Value): Option<int> {
    ParseText(TrimStart(Stringify(v)))
  }

  /** `parseInt` after the leading white space is gone: an optional sign, then the
      longest run of digits; no digits is NaN. */
  function ParseText(t: string): Option<int> {
    var negative := t != [] && t[0] == '-';
    var body := if t != [] && (t[0] == '-' || t[0] == '+') then t[1..] else t;
    var ds := LeadingDigits(body);
    var magnitude: int := if ds == [] then 0 else DigitsValue(ds);
    if ds == [] then None
    else if negative then Some(-magnitude)
    else Some(magnitude)
  }

  lemma {:induction false} LeadingDigitsOfDigits(s: string)
    requires AllDigits(s)
    ensures LeadingDigits(s) == s
  {
    if s != [] {
      LeadingDigitsOfDigits(s[1..]);
    }
  }

  /** A run of digits parses as the number it denotes... */
  lemma ParseTextDigits(d: string)
    requires d != [] && AllDigits(d)
    ensures ParseText(d) == Some(DigitsValue(d))
  {
    LeadingDigitsOfDigits(d);
    assert d[0] != '-' && d[0] != '+';
  }

  /** ...and after a minus sign as its negation. */
  lemma ParseTextNegative(d: string)
    requires d != [] && AllDigits(d)
    ensures ParseText("-" + d) == Some(-(DigitsValue(d) as int))
  {
    var t := "-" + d;
    assert t[0] == '-' && t[1..] == d;
    LeadingDigitsOfDigits(d);
  }

  /** Printed decimal text has no leading white space. */
  lemma NatTextUntrimmed(m: nat)
    ensures TrimStart(NatText(m)) == NatText(m)
    ensures TrimStart("-" + NatText(m)) == "-" + NatText(m)
  {
    var d := NatText(m);
    assert IsDigit(d[0]);
    TrimStartPlain(d);
    TrimStartPlain("-" + d);
  }

  /** `parseInt` reads back any integer it can be given as a number: one printed
      positionally, below `ExponentThreshold` in magnitude. (An integral double
      of that size reads back as the same double.) */
  lemma ParseIntOfNumber(n: int)
    requires -(ExponentThreshold as int) < n < ExponentThreshold
    ensures ParseInt(Num(n)) == Some(n)
  {
    var m: nat := if n < 0 then -n else n;
    var d := NatText(m);
    NatTextRoundTrip(m);
    NatTextUntrimmed(m);
    if n < 0 {
      assert Stringify(Num(n)) == "-" + d;
      ParseTextNegative(d);
    } else {
      assert Stringify(Num(n)) == d;
      ParseTextDigits(d);
    }
  }

  lemma TrimStartPlain(s: string)
    requires s != [] && !IsSpace(s[0])
    ensures TrimStart(s) == s
  {
  }
}

=== FILE: pin.dfy ===
/**
 The PIN auto-fill hooks of the form page: which descriptors hold the PIN code,
 the state and the city, and when a typed PIN is looked up. The lookup itself is
 a network call and is not part of this model.
 */
module PinLookup {
  import opened Wrappers
  import opened Js
  import opened FormSchema

  const PinWords: seq<string> := ["pin", "pincode", "postal"]
  const StateWords: seq<string> := ["state"]
  const CityWords: seq<string> := ["city", "district", "taluka"]

  /** `/w1|w2|.../i.test(f.name || f.id || "")`. The words are ASCII letters, and a
      case-insensitive match never equates a non-ASCII character with an ASCII
      one, so this is a substring test on the ASCII-lowercased key. */
  predicate Mentions(f: Field, words: seq<string>) {
    ContainsAny(Lower(KeyText(f)), words)
  }

  /** `schema.fields.find(...)` followed by `f ? f.name || f.id : null`: the key of
      the first descriptor that mentions one of `words`. */
  function FindFieldName(fields: seq<Field>, words: seq<string>): (r: Option<string>)
    ensures r.None? <==> forall i | 0 <= i < |fields| :: !Mentions(fields[i], words)
    ensures r.Some? ==> exists i | 0 <= i < |fields| ::
      Mentions(fields[i], words) && r.value == KeyText(fields[i])
      && forall j | 0 <= j < i :: !Mentions(fields[j], words)
  {
    if fields == [] then None
    else if Mentions(fields[0], words) then Some(KeyText(fields[0]))
    else
      var r := FindFieldName(fields[1..], words);
      assert forall i | 1 <= i < |fields| :: fields[i] == fields[1..][i - 1];
      if r.Some? then
        var i :| 0 <= i < |fields[1..]| && Mentions(fields[1..][i], words) && r.value == KeyText(fields[1..][i])
          && forall j | 0 <= j < i :: !Mentions(fields[1..][j], words);
        assert Mentions(fields[i + 1], words) && forall j | 0 <= j < i + 1 :: !Mentions(fields[j], words);
        r
      else r
  }

  /** A found key is never empty: the empty key mentions no word. */
  lemma FoundKeyNonEmpty(fields: seq<Field>, words: seq<string>)
    requires forall w | w in words :: w != []
    requires FindFieldName(fields, words).Some?
    ensures FindFieldName(fields, words).value != []
  {
    var r := FindFieldName(fields, words);
    var i :| 0 <= i < |fields| && Mentions(fields[i], words) && r.value == KeyText(fields[i]);
    EmptyMentionsNothing(words);
  }

  lemma {:induction false} EmptyMentionsNothing(words: seq<string>)
    requires forall w | w in words :: w != []
    ensures !ContainsAny([], words)
  {
    if words != [] {
      assert forall k | 0 <= k < |words[1..]| :: words[1..][k] in words;
      EmptyMentionsNothing(words[1..]);
      assert words[0] in words;
      assert !Contains([], words[0]);
    }
  }

  /** `if (!pinValue || String(pinValue).length !== 6) return;` negated: the lookup
      runs for a truthy value printed as exactly six characters. */
  predicate ShouldLookup(v: Value) {
    Truthy(v) && |Stringify(v)| == 6
  }

  /** A text input's value is a string, and for a string the guard only counts
      characters: any six of them trigger the lookup, digits or not. */
  lemma TextTriggersBySize(s: string)
    ensures ShouldLookup(Str(s)) <==> |s| == 6
  {
  }

  /** Every six-digit number triggers the lookup... */
  lemma SixDigitNumberTriggers(n: int)
    requires 100000 <= n <= 999999
    ensures ShouldLookup(Num(n))
  {
    assert Pow10(5) == 100000 && Pow10(6) == 1000000;
    NatTextLength(n, 5);
  }

  /** ...and no shorter positive number does. */
  lemma ShortNumberIgnored(n: int, k: nat)
    requires k < 5 && Pow10(k) <= n < Pow10(k + 1)
    ensures !ShouldLookup(Num(n))
  {
    NatTextLength(n, k);
  }

  /** ...nor any longer one, printed positionally (below 1e21). */
  lemma LongNumberIgnored(n: int)
    requires 1000000 <= n < ExponentThreshold
    ensures !ShouldLookup(Num(n))
  {
    assert Pow10(6) == 1000000;
    NatTextAtLeast(n, 6);
  }

  /** Nothing empty or absent is looked up. */
  lemma BlankIgnored(v: Value)
    requires v == Undefined || v == Null || v == Str("") || v == Num(0)
    ensures !ShouldLookup(v)
  {
  }
}

=== FILE: prettify.dfy ===
/**
 `prettifyName`: the label shown for a descriptor that has neither a label nor a
 placeholder, made from its key. Runs of `_ - $ .` and digits become one space,
 every letter that starts a word is upper-cased, and surrounding white space is
 trimmed.
 */
module Prettify {
  import opened Js
  import opened Seqs

  /** The character class `[_\-\$\.\d]`. */
  predicate IsSeparator(c: char) {
    c == '_' || c == '-' || c == '$' || c == '.' || IsDigit(c)
  }

  /** The character class `\w`. */
  predicate IsWordChar(c: char) {
    IsUpper(c) || IsLower(c) || IsDigit(c) || c == '_'
  }

  /** `s` without its leading run of separators. */
  function DropSeparators(s: string): (r: string)
    ensures |r| <= |s| && r == s[|s| - |r|..]
    ensures r != [] ==> !IsSeparator(r[0])
    ensures forall i | 0 <= i < |s| - |r| :: IsSeparator(s[i])
  {
    if s != [] && IsSeparator(s[0]) then DropSeparators(s[1..]) else s
  }

  /** `.replace(/[_\-\$\.\d]+/g, " ")`: each maximal run of separators becomes one
      space, so no separator is left. */
  function Squash(s: string): (r: string)
    ensures forall i | 0 <= i < |r| :: !IsSeparator(r[i])
    ensures |r| <= |s|
    decreases |s|
  {
    if s == [] then []
    else if IsSeparator(s[0]) then " " + Squash(DropSeparators(s))
    else [s[0]] + Squash(s[1..])
  }

  /** `s` ends in a character that is not a separator (or is empty). */
  predicate EndsPlain(s: string) {
    s == [] || !IsSeparator(s[|s| - 1])
  }

  /** `s` starts with a character that is not a separator (or is empty). */
  predicate StartsPlain(s: string) {
    s == [] || !IsSeparator(s[0])
  }

  predicate AllSeparators(s: string) {
    forall i | 0 <= i < |s| :: IsSeparator(s[i])
  }

  /** A leading separator run followed by plain text is dropped entirely. */
  lemma {:induction false} DropSeparatorRun(run: string, b: string)
    requires AllSeparators(run) && StartsPlain(b)
    ensures DropSeparators(run + b) == b
  {
    if run != [] {
      assert (run + b)[1..] == run[1..] + b;
      DropSeparatorRun(run[1..], b);
    } else {
      assert run + b == b;
    }
  }

  /** Dropping the leading separators of a text that ends plain never reaches
      what follows it. */
  lemma {:induction false} DropSeparatorsAppend(a: string, t: string)
    requires a != [] && EndsPlain(a)
    ensures DropSeparators(a + t) == DropSeparators(a) + t
  {
    if IsSeparator(a[0]) {
      assert (a + t)[1..] == a[1..] + t;
      DropSeparatorsAppend(a[1..], t);
    }
  }

  /** The two ways `Squash` starts: a plain character is copied... */
  lemma SquashPlainHead(c: char, t: string)
    requires !IsSeparator(c)
    ensures Squash([c] + t) == [c] + Squash(t)
  {
    assert ([c] + t)[1..] == t;
  }

  /** ...and a leading separator run becomes one space. */
  lemma SquashSeparatorHead(s: string)
    requires s != [] && IsSeparator(s[0])
    ensures Squash(s) == " " + Squash(DropSeparators(s))
  {
  }

  /** The rule itself: a maximal run of separators, between two texts that do not
      continue it, becomes exactly one space, and the texts on either side are
      squashed on their own. */
  lemma {:induction false} SquashRun(a: string, run: string, b: string)
    requires EndsPlain(a) && run != [] && AllSeparators(run) && StartsPlain(b)
    ensures Squash(a + run + b) == Squash(a) + " " + Squash(b)
    decreases |a|
  {
    if a == [] {
      SquashRunAlone(run, b);
      assert a + run + b == run + b;
    } else if IsSeparator(a[0]) {
      var d := DropSeparators(a);
      assert d != [] && |d| < |a| && EndsPlain(d);
      SquashRun(d, run, b);
      SquashRunAfterSeparators(a, run, b);
    } else {
      SquashRun(a[1..], run, b);
      SquashRunAfterPlain(a, run, b);
    }
  }

  lemma SquashRunAlone(run: string, b: string)
    requires run != [] && AllSeparators(run) && StartsPlain(b)
    ensures Squash(run + b) == " " + Squash(b)
  {
    DropSeparatorRun(run, b);
    SquashSeparatorHead(run + b);
  }

  /** The step of `SquashRun` for a text that starts with separators. */
  lemma SquashRunAfterSeparators(a: string, run: string, b: string)
    requires a != [] && EndsPlain(a) && IsSeparator(a[0])
    requires var d := DropSeparators(a); Squash(d + run + b) == Squash(d) + " " + Squash(b)
    ensures Squash(a + run + b) == Squash(a) + " " + Squash(b)
  {
    var d, t := DropSeparators(a), run + b;
    Regroup(a, run, b);
    Regroup(d, run, b);
    DropSeparatorsAppend(a, t);
    SquashSeparatorHead(a + t);
    SquashSeparatorHead(a);
    Regroup3(" ", Squash(d), " ", Squash(b));
  }

  /** The step of `SquashRun` for a text that starts with a plain character. */
  lemma SquashRunAfterPlain(a: string, run: string, b: string)
    requires a != [] && !IsSeparator(a[0])
    requires Squash(a[1..] + run + b) == Squash(a[1..]) + " " + Squash(b)
    ensures Squash(a + run + b) == Squash(a) + " " + Squash(b)
  {
    var c, rest := a[0], a[1..];
    SplitHead(a, run + b);
    Regroup(a, run, b);
    Regroup(rest, run, b);
    SquashPlainHead(c, rest + run + b);
    SquashPlainHead(c, rest);
    Regroup3([c], Squash(rest), " ", Squash(b));
  }

  /** For example, "first_name" is squashed to "first name". */
  lemma SquashFirstName()
    ensures Squash("first_name") == "first name"
  {
    FirstNameParts();
    SquashRun("first", "_", "name");
    FirstNamePlain();
  }

  lemma FirstNameParts()
    ensures "first_name" == "first" + "_" + "name"
    ensures "first name" == "first" + " " + "name"
  {
  }

  lemma FirstNamePlain()
    ensures Squash("first") == "first" && Squash("name") == "name"
  {
    SquashKeepsPlainText("first");
    SquashKeepsPlainText("name");
  }

  /** A name without separators is left as it is. */
  lemma {:induction false} SquashKeepsPlainText(s: string)
    requires forall i | 0 <= i < |s| :: !IsSeparator(s[i])
    ensures Squash(s) == s
  {
    if s != [] {
      SquashKeepsPlainText(s[1..]);
    }
  }

  predicate Visible(c: char) { c != ' ' && !IsSeparator(c) }

  /** The characters other than separators and spaces survive, all of them and in
      their order: only the separator runs are rewritten. */
  lemma {:induction false} SquashKeepsVisible(s: string)
    ensures Filter(Squash(s), Visible) == Filter(s, Visible)
    decreases |s|
  {
    if s != [] {
      if IsSeparator(s[0]) {
        var d := DropSeparators(s);
        SquashKeepsVisible(d);
        var n := |s| - |d|;
        assert s == s[..n] + d;
        FilterAppend(s[..n], d, Visible);
        FilterNone(s[..n], Visible);
        FilterAppend(" ", Squash(d), Visible);
      } else {
        SquashKeepsVisible(s[1..]);
        assert Squash(s) == [s[0]] + Squash(s[1..]);
        FilterAppend([s[0]], Squash(s[1..]), Visible);
      }
    }
  }

  /** `\b\w` matches at `i`: a word character not preceded by one. */
  predicate WordStart(s: string, i: int)
    requires 0 <= i < |s|
  {
    IsWordChar(s[i]) && (i == 0 || !IsWordChar(s[i - 1]))
  }

  /** The left-to-right scan of `.replace(/\b\w/g, (c) => c.toUpperCase())`;
      `afterWord` tells whether the character before `s` was a word character. */
  function CapitalizeFrom(s: string, afterWord: bool): (r: string)
    ensures |r| == |s|
    ensures |s| > 0 ==> r[0] == (if !afterWord && IsWordChar(s[0]) then UpperChar(s[0]) else s[0])
    ensures forall i | 1 <= i < |s| :: r[i] == (if WordStart(s, i) then UpperChar(s[i]) else s[i])
  {
    if s == [] then []
    else
      var rest := CapitalizeFrom(s[1..], IsWordChar(s[0]));
      assert forall i | 2 <= i < |s| :: WordStart(s, i) == WordStart(s[1..], i - 1);
      [if !afterWord && IsWordChar(s[0]) then UpperChar(s[0]) else s[0]] + rest
  }

  /** Every word start is upper-cased; every other character is kept. */
  function Capitalize(s: string): (r: string)
    ensures |r| == |s|
    ensures forall i | 0 <= i < |s| :: r[i] == (if WordStart(s, i) then UpperChar(s[i]) else s[i])
  {
    CapitalizeFrom(s, false)
  }

  /** `s` without its trailing white space. */
  function TrimEnd(s: string): (r: string)
    ensures |r| <= |s| && r == s[..|r|]
    ensures r != [] ==> !IsSpace(r[|r| - 1])
    ensures forall i | |r| <= i < |s| :: IsSpace(s[i])
  {
    if s != [] && IsSpace(s[|s| - 1]) then TrimEnd(s[..|s| - 1]) else s
  }

  /** `.trim()` */
  function Trim(s: string): string {
    TrimEnd(TrimStart(s))
  }

  /** `prettifyName(name)` */
  function PrettifyName(name: string): string {
    Trim(Capitalize(Squash(name)))
  }

  /** A lower-case letter at `i` is not the first character of a word. */
  predicate LowerContinuesWord(s: string, i: int)
    requires 0 <= i < |s|
  {
    IsLower(s[i]) ==> i > 0 && IsWordChar(s[i - 1])
  }

  lemma UpperCharKeepsClass(c: char)
    ensures IsSeparator(UpperChar(c)) == IsSeparator(c)
    ensures IsWordChar(UpperChar(c)) == IsWordChar(c)
    ensures !IsLower(UpperChar(c))
  {
  }

  /** After capitalisation of a separator-free text: still no separator, and a
      lower-case letter is always preceded by a word character. */
  lemma CapitalizedShape(q: string)
    requires forall j | 0 <= j < |q| :: !IsSeparator(q[j])
    ensures var c := Capitalize(q);
      (forall j | 0 <= j < |c| :: !IsSeparator(c[j]))
      && (forall j | 0 <= j < |c| :: LowerContinuesWord(c, j))
  {
    var c := Capitalize(q);
    forall j | 0 <= j < |c| ensures !IsSeparator(c[j]) && IsWordChar(c[j]) == IsWordChar(q[j]) {
      UpperCharKeepsClass(q[j]);
    }
    forall j | 0 <= j < |c| ensures LowerContinuesWord(c, j) {
      UpperCharKeepsClass(q[j]);
      if IsLower(c[j]) {
        assert !WordStart(q, j);
      }
    }
  }

  /** Trimming keeps those two facts and removes white space at both ends. */
  lemma TrimmedShape(c: string)
    requires forall j | 0 <= j < |c| :: !IsSeparator(c[j])
    requires forall j | 0 <= j < |c| :: LowerContinuesWord(c, j)
    ensures var r := Trim(c);
      (r == [] || (!IsSpace(r[0]) && !IsSpace(r[|r| - 1])))
      && (forall i | 0 <= i < |r| :: !IsSeparator(r[i]))
      && (forall i | 0 <= i < |r| :: LowerContinuesWord(r, i))
  {
    var t := TrimStart(c);
    var a := |c| - |t|;
    var r := TrimEnd(t);
    assert a > 0 ==> !IsWordChar(c[a - 1]) by {
      if a > 0 {
        SpaceIsNotWordChar(c[a - 1]);
      }
    }
    forall i | 0 <= i < |r| ensures LowerContinuesWord(r, i) {
      assert r[i] == c[a + i];
      assert LowerContinuesWord(c, a + i);
      if i > 0 {
        assert r[i - 1] == c[a + i - 1];
      }
    }
  }

  lemma SpaceIsNotWordChar(c: char)
    requires IsSpace(c)
    ensures !IsWordChar(c)
  {
  }

  /** The shape of every generated label: no white space at either end, no
      separator anywhere, and every lower-case letter continues a word. */
  lemma PrettifyShape(name: string)
    ensures var r := PrettifyName(name);
      (r == [] || (!IsSpace(r[0]) && !IsSpace(r[|r| - 1])))
      && (forall i | 0 <= i < |r| :: !IsSeparator(r[i]))
      && (forall i | 0 <= i < |r| :: LowerContinuesWord(r, i))
  {
    CapitalizedShape(Squash(name));
    TrimmedShape(Capitalize(Squash(name)));
  }

  /** The whole label on that example: "first_name" is shown as "First Name". */
  lemma PrettifyFirstName()
    ensures PrettifyName("first_name") == "First Name"
  {
    SquashFirstName();
    CapitalizeFirstName();
    TrimUntouched("First Name");
  }

  lemma CapitalizeFirstName()
    ensures Capitalize("first name") == "First Name"
  {
    var s, c := "first name", Capitalize("first name");
    assert !WordStart(s, 1) && !WordStart(s, 2) && !WordStart(s, 3) && !WordStart(s, 4);
    assert !WordStart(s, 5) && WordStart(s, 6);
    assert !WordStart(s, 7) && !WordStart(s, 8) && !WordStart(s, 9);
  }

  /** Text with no white space at either end is left alone by `.trim()`. */
  lemma TrimUntouched(s: string)
    requires s != [] && !IsSpace(s[0]) && !IsSpace(s[|s| - 1])
    ensures Trim(s) == s
  {
    TrimStartPlain(s);
  }
}

=== FILE: rules.dfy ===
/**
 The per-field validation rules the browser registers with its form library: a
 required message, a maximum length and a pattern, each built from the
 descriptor, with the label falling back from `label` to `placeholder` to a
 prettified key.
 */
module Rules {
  import opened Wrappers
  import opened Js
  import opened FormSchema
  import opened Prettify
  import opened Validator

  /** `f.name || f.id || \`field_${i}\``: the input name of the `i`-th field on a page. */
  function FieldName(f: Field, i: nat): (n: string)
    ensures n != []
    ensures KeyText(f) != [] ==> n == KeyText(f)
    ensures KeyText(f) == [] ==> n == "field_" + NatText(i)
  {
    if KeyText(f) != "" then KeyText(f) else "field_" + NatText(i)
  }

  /** `f.label || f.placeholder || prettifyName(name)` */
  function DisplayLabel(f: Field, i: nat): string {
    if f.labelText != "" then f.labelText
    else if f.placeholder != "" then f.placeholder
    else PrettifyName(FieldName(f, i))
  }

  datatype MaxLengthRule = MaxLengthRule(value: int, message: string)
  datatype PatternRule = PatternRule(source: string, message: string)

  /** The `validation` object; an absent property is None. */
  datatype Validation = Validation(
    required: Option<string>,
    maxLength: Option<MaxLengthRule>,
    pattern: Option<PatternRule>)

  /** `f.maxlength ? parseInt(f.maxlength, 10) : undefined`, kept only when truthy
      (NaN and 0 give no rule). */
  function MaxLength(v: Value): (r: Option<int>)
    ensures r.Some? ==> Truthy(v) && r.value != 0 && ParseInt(v) == r
    ensures Truthy(v) && ParseInt(v).Some? && ParseInt(v).value != 0 ==> r.Some?
  {
    if !Truthy(v) then None
    else
      match ParseInt(v)
      case Some(n) => if n != 0 then Some(n) else None
      case None => None
  }

  /** The rules for the `i`-th field of a page. `compiles(p)` is false exactly when
      `new RegExp(p)` throws; such a pattern is left out instead of failing. */
  function BuildRules(f: Field, i: nat, compiles: string -> bool): (v: Validation)
    ensures v.required.Some? <==> f.required
    ensures v.maxLength.Some? <==> MaxLength(f.maxlength).Some?
    ensures v.pattern.Some? <==> f.pattern != "" && compiles(f.pattern)
    ensures v.required.Some? ==> v.required.value == DisplayLabel(f, i) + " is required"
    ensures v.maxLength.Some? ==>
      (v.maxLength.value.value == MaxLength(f.maxlength).value
       && v.maxLength.value.message == "Max " + IntText(v.maxLength.value.value) + " characters")
    ensures v.pattern.Some? ==> v.pattern.value == PatternRule(f.pattern, DisplayLabel(f, i) + " invalid format")
  {
    var name := DisplayLabel(f, i);
    var limit := match MaxLength(f.maxlength)
      case Some(n) => Some(MaxLengthRule(n, "Max " + IntText(n) + " characters"))
      case None => None;
    Validation(
      if f.required then Some(name + " is required") else None,
      limit,
      if f.pattern != "" && compiles(f.pattern) then Some(PatternRule(f.pattern, name + " invalid format")) else None)
  }

  /** A numeric `maxlength` other than 0 becomes the rule's limit unchanged, as
      long as it prints positionally (from 1e21 on, `parseInt` reads only the
      leading digit of the exponent notation). */
  lemma MaxLengthOfNumber(n: int)
    requires n != 0 && -(ExponentThreshold as int) < n < ExponentThreshold
    ensures MaxLength(Num(n)) == Some(n)
  {
    ParseIntOfNumber(n);
  }

  /** So does a positive limit written as decimal text, as HTML attributes are, up
      to the largest integer `parseInt` reads back exactly. */
  lemma MaxLengthOfText(n: nat)
    requires n != 0 && n <= MaxSafeInteger
    ensures MaxLength(Str(NatText(n))) == Some(n)
  {
    NatTextRoundTrip(n);
    NatTextUntrimmed(n);
    ParseTextDigits(NatText(n));
  }

  /** With a `label`, the browser's messages are word for word the server's. */
  lemma MessagesMatchServer(f: Field, i: nat, data: map<string, Value>, re: Regex)
    requires f.labelText != ""
    ensures f.required && Blank(ValueOf(data, f)) ==>
      CheckField(f, data, re) == Fail(FieldError(Key(f), BuildRules(f, i, re.compiles).required.value))
    ensures (!(f.required && Blank(ValueOf(data, f))) && f.pattern != "" && Truthy(ValueOf(data, f))
             && re.compiles(f.pattern) && !re.test(f.pattern, Stringify(ValueOf(data, f)))) ==>
      CheckField(f, data, re) == Fail(FieldError(Key(f), BuildRules(f, i, re.compiles).pattern.value.message))
  {
  }

  /** Without a `label` but with a `placeholder`, the two sides name the field
      differently: the browser shows the placeholder, the server the key. */
  lemma PlaceholderLabelDiffers(f: Field, i: nat)
    requires f.labelText == "" && f.placeholder != "" && f.placeholder != Text(Key(f))
    ensures DisplayLabel(f, i) != Label(f)
  {
  }

  /** A pattern that does not compile is silently dropped by the browser, while
      the server's check of a truthy value for the same field raises. */
  lemma BadPatternDroppedHereRaisedThere(f: Field, i: nat, data: map<string, Value>, re: Regex)
    requires f.pattern != "" && !re.compiles(f.pattern)
    requires Truthy(ValueOf(data, f))
    ensures BuildRules(f, i, re.compiles).pattern == None
    ensures CheckField(f, data, re) == Raise(f.pattern)
  {
  }
}

=== FILE: seqs.dfy ===
/** Order-preserving selection and concatenation on sequences. */
module Seqs {

  /** The elements of `s` that satisfy `p`, in their original order. */
  function Filter<T>(s: seq<T>, p: T -> bool): (r: seq<T>)
    ensures |r| <= |s|
    ensures forall i | 0 <= i < |r| :: r[i] in s && p(r[i])
    ensures forall i | 0 <= i < |s| && p(s[i]) :: s[i] in r
  {
    if s == [] then []
    else (if p(s[0]) then [s[0]] else []) + Filter(s[1..], p)
  }

  /** Filtering distributes over concatenation, which is what "keeps input order" means. */
  lemma {:induction false} FilterAppend<T>(a: seq<T>, b: seq<T>, p: T -> bool)
    ensures Filter(a + b, p) == Filter(a, p) + Filter(b, p)
  {
    if a == [] {
      assert a + b == b;
    } else {
      assert (a + b)[1..] == a[1..] + b;
      FilterAppend(a[1..], b, p);
    }
  }

  /** A filter whose predicate holds everywhere on `s` returns `s`. */
  lemma {:induction false} FilterAll<T>(s: seq<T>, p: T -> bool)
    requires forall i | 0 <= i < |s| :: p(s[i])
    ensures Filter(s, p) == s
  {
    if s != [] {
      FilterAll(s[1..], p);
    }
  }

  /** A filter whose predicate fails everywhere on `s` returns nothing. */
  lemma {:induction false} FilterNone<T>(s: seq<T>, p: T -> bool)
    requires forall i | 0 <= i < |s| :: !p(s[i])
    ensures Filter(s, p) == []
  {
    if s != [] {
      FilterNone(s[1..], p);
    }
  }

  /** Concatenation of a sequence of sequences. */
  function Flatten<T>(ss: seq<seq<T>>): (r: seq<T>)
    ensures |ss| == 1 ==> r == ss[0]
  {
    if ss == [] then [] else ss[0] + Flatten(ss[1..])
  }

  lemma {:induction false} FlattenContains<T>(ss: seq<seq<T>>, i: nat, j: nat)
    requires i < |ss| && j < |ss[i]|
    ensures ss[i][j] in Flatten(ss)
  {
    if i > 0 {
      FlattenContains(ss[1..], i - 1, j);
    }
  }

  /** Regrouping concatenations, stated apart so that no other fact is in scope. */
  lemma Regroup<T>(x: seq<T>, y: seq<T>, z: seq<T>)
    ensures x + y + z == x + (y + z)
  {
  }

  lemma Regroup3<T>(w: seq<T>, x: seq<T>, y: seq<T>, z: seq<T>)
    ensures w + (x + y + z) == (w + x) + y + z
  {
  }

  lemma SplitHead<T>(x: seq<T>, t: seq<T>)
    requires x != []
    ensures x == [x[0]] + x[1..]
    ensures x + t == [x[0]] + (x[1..] + t)
  {
  }
}

=== FILE: steps.dfy ===
/**
 The browser's wizard pages: `splitIntoSteps` partitions the enriched field list
 into ordered pages, either by an explicit `step` attribute or by keywords in the
 field keys, and the Next/Back buttons move between pages.
 */
module Steps {
  import opened Wrappers
  import opened Js
  import opened FormSchema
  import opened Seqs
  import opened StringOrder
  import Grouping

  // ---------- grouping by an explicit step attribute ----------

  /** Some descriptor carries a `step` attribute (`f.step !== undefined`). */
  predicate HasStepAttr(fields: seq<Field>) {
    exists i | 0 <= i < |fields| :: fields[i].step != Undefined
  }

  /** `String(f.step || 0)`: the text a descriptor is grouped under. */
  function StepKey(f: Field): string {
    Stringify(if Truthy(f.step) then f.step else Num(0))
  }

  /** The descriptors grouped under key `k`, in schema order. */
  function OnPage(fields: seq<Field>, k: string): seq<Field> {
    Grouping.WithKey(fields, StepKey, k)
  }

  /** The grouping branch: one page per distinct step key, pages sorted by key as
      text. Together the pages are a rearrangement of the fields; each page holds
      every field of its key in schema order; the keys ascend strictly. */
  function GroupByStep(fields: seq<Field>): (pages: seq<seq<Field>>)
    ensures multiset(Flatten(pages)) == multiset(fields)
    ensures forall i | 0 <= i < |pages| :: pages[i] != [] && pages[i] == OnPage(fields, StepKey(pages[i][0]))
    ensures forall i, j | 0 <= i < j < |pages| :: LexLt(StepKey(pages[i][0]), StepKey(pages[j][0]))
  {
    Grouping.GroupSorted(fields, StepKey)
  }

  /** A descriptor without a truthy `step` is grouped under "0". */
  lemma FalsyStepIsZero(f: Field)
    requires !Truthy(f.step)
    ensures StepKey(f) == "0"
  {
  }

  /** A schema whose every descriptor carries a falsy step (for example `step: 0`)
      is a single page holding all fields in their original order. */
  lemma {:induction false} UniformStepOnePage(fields: seq<Field>)
    requires fields != []
    requires forall i | 0 <= i < |fields| :: !Truthy(fields[i].step)
    ensures GroupByStep(fields) == [fields]
  {
    var pages := GroupByStep(fields);
    assert forall i | 0 <= i < |fields| :: StepKey(fields[i]) == "0";
    forall i | 0 <= i < |pages| ensures StepKey(pages[i][0]) == "0" {
      FlattenContains(pages, i, 0);
      assert pages[i][0] in multiset(Flatten(pages));
      assert pages[i][0] in fields;
    }
    assert fields[0] in multiset(Flatten(pages));
    assert |pages| == 1;
    Grouping.WithKeyAll(fields, StepKey, "0");
  }

  /** Step keys compare as text: a field with `step: 10` lands on an earlier page
      than one with `step: 2`. */
  lemma StepTenBeforeStepTwo(a: Field, b: Field)
    requires a.step == Num(10) && b.step == Num(2)
    ensures LexLt(StepKey(a), StepKey(b))
  {
    assert StepKey(a) == "10" && StepKey(b) == "2";
  }

  // ---------- keyword mode ----------

  /** Words that put a field on the first page (`/aadhaar|...|otp/i`). */
  const Step1Words: seq<string> := ["aadhaar", "adhar", "aadhar", "txtadharno", "ownername", "validateaadhaar", "otp"]

  /** Words that put a field on the second page (`/pan|pancard|txtpan|tan/i`). */
  const Step2Words: seq<string> := ["pan", "pancard", "txtpan", "tan"]

  /** `(f.type || f.tag) === "hidden"` */
  predicate Hidden(f: Field) {
    (if f.inputType != "" then f.inputType else f.tag) == "hidden"
  }

  datatype Placement = First | Second | Skipped

  /** Where the keyword pass puts one descriptor. The patterns are case-insensitive
      and consist of ASCII letters only, so matching them amounts to a substring
      test on the ASCII-lowercased key. */
  function Place(f: Field): Placement {
    var k := Lower(KeyText(f));
    if ContainsAny(k, Step1Words) then First
    else if ContainsAny(k, Step2Words) then Second
    else if Hidden(f) then Skipped
    else Second
  }

  predicate InFirst(f: Field) { Place(f) == First }
  predicate InSecond(f: Field) { Place(f) == Second }
  predicate Kept(f: Field) { Place(f) != Skipped }

  /** The two lists `[step1, step2]`. */
  datatype Pages = Pages(first: seq<Field>, second: seq<Field>)

  /** The `fields.forEach` pass pushing each descriptor onto `step1` or `step2`, or
      dropping it. Each list is the selection of its fields in schema order. */
  function Distribute(fields: seq<Field>): (r: Pages)
    ensures r.first == Filter(fields, InFirst)
    ensures r.second == Filter(fields, InSecond)
  {
    if fields == [] then Pages([], [])
    else
      var p, f := fields[..|fields| - 1], fields[|fields| - 1];
      var b := Distribute(p);
      assert fields == p + [f];
      FilterAppend(p, [f], InFirst);
      FilterAppend(p, [f], InSecond);
      match Place(f)
      case First => b.(first := b.first + [f])
      case Second => b.(second := b.second + [f])
      case Skipped => b
  }

  /** The fallback: when step 1 came out empty but step 2 did not, the first (up to)
      two fields of step 2 move to step 1. Nothing is lost or reordered; step 1
      takes two fields unless step 2 had fewer. */
  function Borrow(b: Pages): (r: Pages)
    ensures r.first + r.second == b.first + b.second
    ensures b.first != [] || b.second == [] ==> r == b
    ensures b.first == [] && b.second != [] ==>
      r.first != [] && |r.first| <= 2 && (|r.first| == 2 || r.second == [])
  {
    if b.first == [] && b.second != [] then
      var n := if |b.second| < 2 then |b.second| else 2;
      assert b.second[..n] + b.second[n..] == b.second;
      Pages(b.second[..n], b.second[n..])
    else b
  }

  /** The first and second selections together are exactly the kept fields. */
  lemma {:induction false} KeywordPartition(fields: seq<Field>)
    ensures multiset(Filter(fields, InFirst)) + multiset(Filter(fields, InSecond)) == multiset(Filter(fields, Kept))
  {
    if fields != [] {
      KeywordPartition(fields[1..]);
    }
  }

  /** `splitIntoSteps(fields)` */
  function SplitIntoSteps(fields: seq<Field>): (pages: seq<seq<Field>>)
    ensures HasStepAttr(fields) ==> multiset(Flatten(pages)) == multiset(fields)
    ensures HasStepAttr(fields) ==> forall i | 0 <= i < |pages| :: pages[i] != []
    ensures !HasStepAttr(fields) ==> |pages| == 2
    ensures !HasStepAttr(fields) ==> multiset(pages[0] + pages[1]) == multiset(Filter(fields, Kept))
    ensures !HasStepAttr(fields) ==> (pages[0] == [] <==> Filter(fields, Kept) == [])
  {
    if HasStepAttr(fields) then GroupByStep(fields)
    else
      var b := Distribute(fields);
      var r := Borrow(b);
      KeywordPartition(fields);
      assert multiset(r.first + r.second) == multiset(b.first) + multiset(b.second);
      [r.first, r.second]
  }

  /** In keyword mode with some step-1 field, the pages are the two selections in
      schema order: step-1 words win over step-2 words, hidden fields without a
      keyword are dropped, every other field is on page two. */
  lemma KeywordPages(fields: seq<Field>)
    requires !HasStepAttr(fields) && Filter(fields, InFirst) != []
    ensures SplitIntoSteps(fields) == [Filter(fields, InFirst), Filter(fields, InSecond)]
  {
  }

  /** In keyword mode without any step-1 field, the kept fields stay in schema order
      across the two pages, and the first page takes two of them (or all, if fewer). */
  lemma {:induction false} BorrowedPages(fields: seq<Field>)
    requires !HasStepAttr(fields) && Filter(fields, InFirst) == []
    ensures var pages := SplitIntoSteps(fields);
      pages[0] + pages[1] == Filter(fields, Kept)
      && |pages[0]| <= 2 && (|pages[0]| == 2 || pages[1] == [])
  {
    SameSelection(fields);
  }

  /** Without step-1 fields, the step-2 selection is every kept field. */
  lemma {:induction false} SameSelection(fields: seq<Field>)
    requires Filter(fields, InFirst) == []
    ensures Filter(fields, InSecond) == Filter(fields, Kept)
  {
    if fields != [] {
      assert !InFirst(fields[0]);
      SameSelection(fields[1..]);
    }
  }

  /** A descriptor that the keyword pass skips is on no page. */
  lemma HiddenFieldDropped(fields: seq<Field>, f: Field)
    requires !HasStepAttr(fields)
    requires Place(f) == Skipped
    ensures var pages := SplitIntoSteps(fields); f !in pages[0] && f !in pages[1]
  {
    var pages := SplitIntoSteps(fields);
    assert f !in Filter(fields, Kept);
    var m := multiset(pages[0] + pages[1]);
    assert f !in m;
    assert m == multiset(pages[0]) + multiset(pages[1]);
  }

  // ---------- navigation ----------

  /** `onNext`: advance by one page when the current page validates, never past the
      last page; stay put otherwise. */
  function OnNext(s: int, count: int, valid: bool): (r: int)
    ensures !valid ==> r == s
    ensures valid ==> r <= count - 1 && r <= s + 1
    ensures valid ==> r == s + 1 || r == count - 1
  {
    if valid then (if s + 1 < count - 1 then s + 1 else count - 1) else s
  }

  /** `onBack`: one page back, never before the first page. */
  function OnBack(s: int): (r: int)
    ensures r >= 0 && r >= s - 1
    ensures r == s - 1 || r == 0
  {
    if s - 1 > 0 then s - 1 else 0
  }

  /** `stepLabels`: the progress bar always shows two step buttons, however many
      pages the form has. */
  const StepLabelCount := 2

  /** Next (carrying the outcome of `trigger`), Back, or a click on the progress
      bar's button for label number `index`, whose `onSelect(i)` sets the index directly. */
  datatype Button = Next(valid: bool) | Back | Select(index: int)

  /** The progress bar renders one button per step label, so a click names one. */
  predicate OnProgressBar(presses: seq<Button>) {
    forall k | 0 <= k < |presses| :: presses[k].Select? ==> 0 <= presses[k].index < StepLabelCount
  }

  /** The page index after a sequence of button presses. */
  function Navigate(s: int, count: int, presses: seq<Button>): int
    decreases |presses|
  {
    if presses == [] then s
    else
      var s' := match presses[0]
        case Next(valid) => OnNext(s, count, valid)
        case Back => OnBack(s)
        case Select(i) => i;
      Navigate(s', count, presses[1..])
  }

  /** An index the form can be on: a page, or a step label of the progress bar. */
  predicate Showable(s: int, count: int) {
    0 <= s < count || 0 <= s < StepLabelCount
  }

  /** Starting on a page or a label of a non-empty wizard, every press keeps the
      index on a page or a label; it lies past the last page only on "Step 2" of a
      one-page wizard. */
  lemma {:induction false} NavigateInRange(s: int, count: int, presses: seq<Button>)
    requires count >= 1 && Showable(s, count)
    requires OnProgressBar(presses)
    ensures var r := Navigate(s, count, presses);
      Showable(r, count) && (r >= count ==> count == 1 && r == 1)
    decreases |presses|
  {
    if presses != [] {
      var s' := match presses[0]
        case Next(valid) => OnNext(s, count, valid)
        case Back => OnBack(s)
        case Select(i) => i;
      assert OnProgressBar(presses[1..]) by {
        forall k | 0 <= k < |presses[1..]| ensures presses[1..][k] == presses[k + 1] { }
      }
      NavigateInRange(s', count, presses[1..]);
    }
  }

  /** Next and Back alone never leave the pages. */
  lemma {:induction false} NextBackStayOnPages(s: int, count: int, presses: seq<Button>)
    requires count >= 1 && 0 <= s < count
    requires forall k | 0 <= k < |presses| :: !presses[k].Select?
    ensures 0 <= Navigate(s, count, presses) < count
    decreases |presses|
  {
    if presses != [] {
      var s' := match presses[0]
        case Next(valid) => OnNext(s, count, valid)
        case Back => OnBack(s)
        case Select(i) => i;
      assert forall k | 0 <= k < |presses[1..]| :: presses[1..][k] == presses[k + 1];
      NextBackStayOnPages(s', count, presses[1..]);
    }
  }

  /** `stepsFields[currentStep] || []`: a page's own fields, or none. */
  function CurrentFields(pages: seq<seq<Field>>, s: int): (r: seq<Field>)
    ensures r == [] || (0 <= s < |pages| && r == pages[s])
  {
    if 0 <= s < |pages| then pages[s] else []
  }

  /** The action row offers Submit instead of Next from the last page on
      (`currentStep < stepsFields.length - 1` fails). */
  predicate OffersSubmit(s: int, count: int) {
    !(s < count - 1)
  }

  /** The form always has at least one page: two in keyword mode, and in step
      mode at least the page of the field that carries a step. */
  lemma {:induction false} SplitHasPages(fields: seq<Field>)
    ensures SplitIntoSteps(fields) != []
  {
    if HasStepAttr(fields) {
      var i :| 0 <= i < |fields| && fields[i].step != Undefined;
      assert fields[i] in multiset(fields);
      assert Flatten<Field>([]) == [];
    }
  }

  /** From the first page (`useState(0)`), the fields shown are the current page's
      own, except in exactly one case: "Step 2" clicked on a one-page wizard, where
      the `|| []` fallback shows no fields and offers Submit. */
  lemma CurrentFieldsReachable(fields: seq<Field>, presses: seq<Button>)
    requires OnProgressBar(presses)
    ensures var pages := SplitIntoSteps(fields);
      var s := Navigate(0, |pages|, presses);
      && 0 <= s
      && (s < |pages| ==> CurrentFields(pages, s) == pages[s])
      && (s >= |pages| <==> |pages| == 1 && s == 1)
      && (s >= |pages| ==> CurrentFields(pages, s) == [] && OffersSubmit(s, |pages|))
  {
    var pages := SplitIntoSteps(fields);
    SplitHasPages(fields);
    NavigateInRange(0, |pages|, presses);
  }

  /** The fallback is reachable: when every descriptor has step 0 there is one page,
      and clicking "Step 2" leaves the form with no fields and a Submit button. */
  lemma StepTwoOfOnePage(fields: seq<Field>)
    requires fields != []
    requires forall i | 0 <= i < |fields| :: fields[i].step == Num(0)
    ensures var pages := SplitIntoSteps(fields);
      var s := Navigate(0, |pages|, [Select(1)]);
      pages == [fields] && s == 1 && CurrentFields(pages, s) == [] && OffersSubmit(s, |pages|)
  {
    assert HasStepAttr(fields) by { assert fields[0].step != Undefined; }
    assert forall i | 0 <= i < |fields| :: !Truthy(fields[i].step);
    UniformStepOnePage(fields);
    assert SplitIntoSteps(fields) == [fields];
    SelectIsDirect(0, 1, 1);
  }

  /** A click on a label moves straight to that label's index. */
  lemma SelectIsDirect(s: int, count: int, i: int)
    ensures Navigate(s, count, [Select(i)]) == i
  {
    assert [Select(i)][1..] == [];
  }

  /** `currentFields.map((f) => f.name || f.id).filter(Boolean)`: the keys Next
      validates, one per descriptor that has a non-empty key, in page order. */
  function StepNames(fields: seq<Field>): (names: seq<string>)
    ensures |names| <= |fields|
    ensures forall j | 0 <= j < |names| :: names[j] != [] && exists i | 0 <= i < |fields| :: KeyText(fields[i]) == names[j]
    ensures forall i | 0 <= i < |fields| && KeyText(fields[i]) != [] :: KeyText(fields[i]) in names
  {
    if fields == [] then []
    else
      var rest := StepNames(fields[1..]);
      assert forall j | 0 <= j < |rest| :: exists i | 0 <= i < |fields| :: KeyText(fields[i]) == rest[j] by {
        forall j | 0 <= j < |rest| ensures exists i | 0 <= i < |fields| :: KeyText(fields[i]) == rest[j] {
          var i :| 0 <= i < |fields[1..]| && KeyText(fields[1..][i]) == rest[j];
          assert KeyText(fields[i + 1]) == rest[j];
        }
      }
      assert forall i | 1 <= i < |fields| && KeyText(fields[i]) != [] :: KeyText(fields[i]) in rest by {
        forall i | 1 <= i < |fields| && KeyText(fields[i]) != [] ensures KeyText(fields[i]) in rest {
          assert fields[i] == fields[1..][i - 1];
        }
      }
      (if KeyText(fields[0]) != [] then [KeyText(fields[0])] else []) + rest
  }
}

=== FILE: stringorder.dfy ===
/**
 The order `Array.prototype.sort()` puts strings in when given no comparator:
 lexicographic by character, a proper prefix first. So "10" sorts before "2".
 */
module StringOrder {

  /** `a` sorts no later than `b`. */
  predicate LexLe(a: string, b: string) {
    a == [] || (b != [] && (a[0] < b[0] || (a[0] == b[0] && LexLe(a[1..], b[1..]))))
  }

  /** `a` sorts strictly before `b`. */
  predicate LexLt(a: string, b: string) {
    LexLe(a, b) && a != b
  }

  lemma {:induction false} LexLeTotal(a: string, b: string)
    ensures LexLe(a, b) || LexLe(b, a)
  {
    if a != [] && b != [] && a[0] == b[0] {
      LexLeTotal(a[1..], b[1..]);
    }
  }

  lemma {:induction false} LexLeAntisymmetric(a: string, b: string)
    requires LexLe(a, b) && LexLe(b, a)
    ensures a == b
  {
    if a != [] {
      LexLeAntisymmetric(a[1..], b[1..]);
      assert a == [a[0]] + a[1..] && b == [b[0]] + b[1..];
    }
  }

  lemma {:induction false} LexLeTransitive(a: string, b: string, c: string)
    requires LexLe(a, b) && LexLe(b, c)
    ensures LexLe(a, c)
  {
    if a != [] && a[0] == b[0] && b[0] == c[0] {
      LexLeTransitive(a[1..], b[1..], c[1..]);
    }
  }

  /** The numeric-looking keys "10" and "2" are ordered as text, not as numbers. */
  lemma TenBeforeTwo()
    ensures LexLt("10", "2") && !LexLe("2", "10")
  {
  }

  predicate Sorted(s: seq<string>) {
    forall i, j | 0 <= i < j < |s| :: LexLe(s[i], s[j])
  }

  /** Places `x` into a sorted sequence. */
  function Insert(x: string, s: seq<string>): (r: seq<string>)
    requires Sorted(s)
    ensures Sorted(r)
    ensures multiset(r) == multiset(s) + multiset{x}
  {
    if s == [] then [x]
    else if LexLe(x, s[0]) then
      HeadBound(x, s);
      [x] + s
    else
      LexLeTotal(x, s[0]);
      var t := Insert(x, s[1..]);
      assert s == [s[0]] + s[1..];
      LowerBound(s[0], t, s[1..], x);
      [s[0]] + t
  }

  /** A lower bound of a sorted sequence's head bounds all of it. */
  lemma HeadBound(x: string, s: seq<string>)
    requires Sorted(s) && s != [] && LexLe(x, s[0])
    ensures forall j | 0 <= j < |s| :: LexLe(x, s[j])
  {
    forall j | 0 <= j < |s| ensures LexLe(x, s[j]) {
      if j > 0 { LexLeTransitive(x, s[0], s[j]); }
    }
  }

  /** A lower bound of `s` and of `x` bounds every rearrangement of `s` plus `x`. */
  lemma LowerBound(y: string, t: seq<string>, s: seq<string>, x: string)
    requires multiset(t) == multiset(s) + multiset{x}
    requires LexLe(y, x) && forall j | 0 <= j < |s| :: LexLe(y, s[j])
    ensures forall j | 0 <= j < |t| :: LexLe(y, t[j])
  {
    forall j | 0 <= j < |t| ensures LexLe(y, t[j]) {
      assert t[j] in multiset(t);
      if t[j] != x {
        assert t[j] in multiset(s);
        var m :| 0 <= m < |s| && s[m] == t[j];
      }
    }
  }

  /** Insertion sort: the sorted rearrangement of `s`. */
  function Sort(s: seq<string>): (r: seq<string>)
    ensures Sorted(r)
    ensures multiset(r) == multiset(s)
  {
    if s == [] then []
    else
      assert s == [s[0]] + s[1..];
      Insert(s[0], Sort(s[1..]))
  }

  /** Each element occurs once. */
  predicate Distinct(s: seq<string>) {
    forall i | 0 <= i < |s| :: multiset(s)[s[i]] == 1
  }

  lemma {:induction false} RepeatCounts(s: seq<string>, i: nat, j: nat)
    requires i < j < |s| && s[i] == s[j]
    ensures multiset(s)[s[i]] >= 2
  {
    assert s == s[..j] + [s[j]] + s[j + 1..];
    assert s[i] in s[..j];
  }

  /** A sorted sequence without repetitions is strictly ascending. */
  lemma {:induction false} SortedDistinctAscending(s: seq<string>)
    requires Sorted(s) && Distinct(s)
    ensures forall i, j | 0 <= i < j < |s| :: LexLt(s[i], s[j])
  {
    forall i, j | 0 <= i < j < |s| ensures LexLt(s[i], s[j]) {
      if s[i] == s[j] {
        RepeatCounts(s, i, j);
      }
    }
  }

  /** Rearranging keeps the absence of repetitions. */
  lemma {:induction false} DistinctPermutation(a: seq<string>, b: seq<string>)
    requires multiset(a) == multiset(b) && Distinct(a)
    ensures Distinct(b)
  {
    forall i | 0 <= i < |b| ensures multiset(b)[b[i]] == 1 {
      assert b[i] in multiset(a);
      var m :| 0 <= m < |a| && a[m] == b[i];
    }
  }
}

=== FILE: validator.dfy ===
/**
 The server's schema-driven validator, `validateAgainstSchema`: a fold over the
 descriptor list that collects at most one `{field, msg}` error per descriptor.
 */
module Validator {
  import opened Wrappers
  import opened Js
  import opened FormSchema

  /** A regular-expression engine for schema-supplied patterns. `compiles(p)` is
      false exactly when `new RegExp(p)` throws; `test(p, s)` is
      `new RegExp(p).test(s)`. ECMAScript regex semantics is not modelled. */
  datatype Regex = Regex(compiles: string -> bool, test: (string, string) -> bool)

  datatype FieldError = FieldError(field: Option<string>, msg: string)

  /** What validation returns: the list of errors, or the pattern whose
      `new RegExp` threw (the server does not guard it). */
  datatype Verdict = Errors(errors: seq<FieldError>) | Throws(pattern: string)

  /** The submitted value for a descriptor: `data[f.name || f.id]`. */
  function ValueOf(data: map<string, Value>, f: Field): Value {
    Lookup(data, Text(Key(f)))
  }

  /** `f.label || name` as the messages print it. */
  function Label(f: Field): string {
    if f.labelText != "" then f.labelText else Text(Key(f))
  }

  /** `val === undefined || val === ""` */
  predicate Blank(v: Value) {
    v == Undefined || v == Str("")
  }

  /** The outcome of checking one descriptor. */
  datatype Check = Pass | Fail(error: FieldError) | Raise(pattern: string)

  /** The body of the `forEach` callback for one descriptor. */
  function CheckField(f: Field, data: map<string, Value>, re: Regex): Check {
    var v := ValueOf(data, f);
    if f.required && Blank(v) then
      Fail(FieldError(Key(f), Label(f) + " is required"))
    else if f.pattern != "" && Truthy(v) then
      if !re.compiles(f.pattern) then Raise(f.pattern)
      else if !re.test(f.pattern, Stringify(v)) then Fail(FieldError(Key(f), Label(f) + " invalid format"))
      else Pass
    else Pass
  }

  /** Every non-empty pattern in the schema is a valid regular expression. */
  predicate PatternsCompile(fields: seq<Field>, re: Regex) {
    forall i | 0 <= i < |fields| :: fields[i].pattern != "" ==> re.compiles(fields[i].pattern)
  }

  /** `validateAgainstSchema(data)` over the descriptor list `fields`. */
  function Validate(fields: seq<Field>, data: map<string, Value>, re: Regex): (r: Verdict)
    ensures fields == [] ==> r == Errors([])
    ensures r.Errors? ==> |r.errors| <= |fields|
    ensures PatternsCompile(fields, re) ==> r.Errors?
  {
    if fields == [] then Errors([])
    else
      match CheckField(fields[0], data, re)
      case Raise(p) => Throws(p)
      case Pass => Validate(fields[1..], data, re)
      case Fail(e) =>
        match Validate(fields[1..], data, re)
        case Throws(p) => Throws(p)
        case Errors(es) => Errors([e] + es)
  }

  // ---------- schema order ----------

  /** Validating one list of descriptors after another. */
  function Then(a: Verdict, b: Verdict): Verdict {
    if a.Throws? then a else if b.Throws? then b else Errors(a.errors + b.errors)
  }

  /** The verdict of a single check. */
  function Single(c: Check): Verdict {
    match c
    case Raise(p) => Throws(p)
    case Fail(e) => Errors([e])
    case Pass => Errors([])
  }

  lemma ThenAssociative(x: Verdict, y: Verdict, z: Verdict)
    ensures Then(Then(x, y), z) == Then(x, Then(y, z))
  {
    if !x.Throws? && !y.Throws? && !z.Throws? {
      assert (x.errors + y.errors) + z.errors == x.errors + (y.errors + z.errors);
    }
  }

  /** One step of the fold: the first descriptor's check, then the rest. */
  lemma ValidateCons(fields: seq<Field>, data: map<string, Value>, re: Regex)
    requires fields != []
    ensures Validate(fields, data, re) == Then(Single(CheckField(fields[0], data, re)), Validate(fields[1..], data, re))
  {
    var rest := Validate(fields[1..], data, re);
    if rest.Errors? {
      assert [] + rest.errors == rest.errors;
    }
  }

  /** The errors a descriptor list yields are the errors of its parts, in schema order. */
  lemma {:induction false} ValidateAppend(a: seq<Field>, b: seq<Field>, data: map<string, Value>, re: Regex)
    ensures Validate(a + b, data, re) == Then(Validate(a, data, re), Validate(b, data, re))
  {
    if a == [] {
      assert a + b == b;
      var v := Validate(b, data, re);
      if v.Errors? {
        assert [] + v.errors == v.errors;
      }
    } else {
      var ab := a + b;
      assert ab[0] == a[0] && ab[1..] == a[1..] + b;
      ValidateAppend(a[1..], b, data, re);
      ValidateCons(ab, data, re);
      ValidateCons(a, data, re);
      ThenAssociative(Single(CheckField(a[0], data, re)), Validate(a[1..], data, re), Validate(b, data, re));
    }
  }

  /** The errors reported against key `k`. */
  function ErrorsFor(es: seq<FieldError>, k: Option<string>): seq<FieldError> {
    if es == [] then []
    else (if es[0].field == k then [es[0]] else []) + ErrorsFor(es[1..], k)
  }

  lemma {:induction false} ErrorsForAppend(a: seq<FieldError>, b: seq<FieldError>, k: Option<string>)
    ensures ErrorsFor(a + b, k) == ErrorsFor(a, k) + ErrorsFor(b, k)
  {
    if a == [] {
      assert a + b == b;
    } else {
      var ab := a + b;
      assert ab[0] == a[0] && ab[1..] == a[1..] + b;
      ErrorsForAppend(a[1..], b, k);
      var head := if a[0].field == k then [a[0]] else [];
      assert ErrorsFor(ab, k) == head + ErrorsFor(a[1..] + b, k);
      assert ErrorsFor(a, k) == head + ErrorsFor(a[1..], k);
    }
  }

  /** Every error names the key of a descriptor that produced it. */
  lemma {:induction false} ErrorFieldsAreKeys(fields: seq<Field>, data: map<string, Value>, re: Regex, k: Option<string>)
    requires forall i | 0 <= i < |fields| :: Key(fields[i]) != k
    requires Validate(fields, data, re).Errors?
    ensures ErrorsFor(Validate(fields, data, re).errors, k) == []
  {
    if fields != [] {
      ErrorFieldsAreKeys(fields[1..], data, re, k);
    }
  }

  /** The errors a single descriptor contributes. */
  function Contribution(c: Check): seq<FieldError> {
    if c.Fail? then [c.error] else []
  }

  /** With unique keys, the errors filed under a descriptor's key are exactly what
      that descriptor's own check produced: at most one, and none from other fields.
      It holds whenever validation raised nothing, whatever patterns fail to compile. */
  lemma {:induction false} OwnErrors(fields: seq<Field>, data: map<string, Value>, re: Regex, i: nat)
    requires UniqueKeys(fields) && Validate(fields, data, re).Errors?
    requires i < |fields|
    ensures ErrorsFor(Validate(fields, data, re).errors, Key(fields[i]))
            == Contribution(CheckField(fields[i], data, re))
  {
    TailInvariants(fields, data, re);
    if i == 0 {
      ErrorFieldsAreKeys(fields[1..], data, re, Key(fields[0]));
      OwnErrorsStep(fields, data, re, 0);
    } else {
      assert fields[1..][i - 1] == fields[i];
      OwnErrors(fields[1..], data, re, i - 1);
      OwnErrorsStep(fields, data, re, i);
    }
  }

  /** The errors filed under the key of descriptor `i`: the head's share, then the tail's. */
  lemma OwnErrorsStep(fields: seq<Field>, data: map<string, Value>, re: Regex, i: nat)
    requires Validate(fields, data, re).Errors? && i < |fields|
    requires i > 0 ==> Key(fields[0]) != Key(fields[i])
    requires Validate(fields[1..], data, re).Errors?
    requires ErrorsFor(Validate(fields[1..], data, re).errors, Key(fields[i]))
             == (if i == 0 then [] else Contribution(CheckField(fields[i], data, re)))
    ensures ErrorsFor(Validate(fields, data, re).errors, Key(fields[i]))
            == Contribution(CheckField(fields[i], data, re))
  {
    var k := Key(fields[i]);
    var head := Contribution(CheckField(fields[0], data, re));
    var rest := Validate(fields[1..], data, re).errors;
    ErrorsCons(fields, data, re);
    ErrorsForAppend(head, rest, k);
    ContributionFiled(fields[0], data, re, k);
  }

  /** A descriptor's error is filed under its own key and no other. */
  lemma ContributionFiled(f: Field, data: map<string, Value>, re: Regex, k: Option<string>)
    ensures var own := Contribution(CheckField(f, data, re));
      ErrorsFor(own, k) == if k == Key(f) then own else []
  {
    var own := Contribution(CheckField(f, data, re));
    if own != [] {
      assert own == [own[0]] && own[0].field == Key(f);
      assert ErrorsFor(own, k) == (if own[0].field == k then [own[0]] else []) + ErrorsFor([], k);
    }
  }

  /** The tail of a schema with unique keys that raised nothing has unique keys,
      raises nothing, and shares no key with the head. */
  lemma TailInvariants(fields: seq<Field>, data: map<string, Value>, re: Regex)
    requires UniqueKeys(fields) && Validate(fields, data, re).Errors? && fields != []
    ensures UniqueKeys(fields[1..]) && Validate(fields[1..], data, re).Errors?
    ensures forall j | 0 <= j < |fields[1..]| :: Key(fields[1..][j]) != Key(fields[0])
  {
    var tail := fields[1..];
    assert forall j | 0 <= j < |tail| :: tail[j] == fields[j + 1];
    ValidateCons(fields, data, re);
  }

  /** When nothing raised, the errors are the head's, then the tail's. */
  lemma ErrorsCons(fields: seq<Field>, data: map<string, Value>, re: Regex)
    requires Validate(fields, data, re).Errors? && fields != []
    ensures Validate(fields[1..], data, re).Errors?
    ensures Validate(fields, data, re).errors
            == Contribution(CheckField(fields[0], data, re)) + Validate(fields[1..], data, re).errors
  {
    ValidateCons(fields, data, re);
  }

  /** A required field whose value is undefined or "" yields exactly one error,
      "<label> is required", filed under its key. Its pattern is not consulted:
      the check fails this way for every regular-expression engine, and the lemma
      holds even when that pattern does not compile. */
  lemma {:induction false} MissingRequired(fields: seq<Field>, data: map<string, Value>, re: Regex, i: nat)
    requires UniqueKeys(fields) && Validate(fields, data, re).Errors?
    requires i < |fields| && fields[i].required && Blank(ValueOf(data, fields[i]))
    ensures forall other: Regex ::
      CheckField(fields[i], data, other) == Fail(FieldError(Key(fields[i]), Label(fields[i]) + " is required"))
    ensures ErrorsFor(Validate(fields, data, re).errors, Key(fields[i]))
            == [FieldError(Key(fields[i]), Label(fields[i]) + " is required")]
  {
    OwnErrors(fields, data, re, i);
  }

  /** When validation raised nothing, no descriptor's check raised. */
  lemma {:induction false} NoRaiseAt(fields: seq<Field>, data: map<string, Value>, re: Regex, i: nat)
    requires Validate(fields, data, re).Errors? && i < |fields|
    ensures !CheckField(fields[i], data, re).Raise?
  {
    ErrorsCons(fields, data, re);
    if i > 0 {
      assert fields[1..][i - 1] == fields[i];
      NoRaiseAt(fields[1..], data, re, i - 1);
    }
  }

  /** A present value that the field's pattern rejects yields exactly one error,
      "<label> invalid format". */
  lemma {:induction false} BadFormat(fields: seq<Field>, data: map<string, Value>, re: Regex, i: nat)
    requires UniqueKeys(fields) && Validate(fields, data, re).Errors?
    requires i < |fields|
    requires fields[i].pattern != "" && Truthy(ValueOf(data, fields[i]))
    requires !re.test(fields[i].pattern, Stringify(ValueOf(data, fields[i])))
    ensures ErrorsFor(Validate(fields, data, re).errors, Key(fields[i]))
            == [FieldError(Key(fields[i]), Label(fields[i]) + " invalid format")]
  {
    NoRaiseAt(fields, data, re, i);
    OwnErrors(fields, data, re, i);
  }

  /** An optional field whose value is absent, empty or otherwise falsy yields no
      error, whatever its pattern: the check passes for every engine, including
      one that cannot compile the pattern. */
  lemma {:induction false} OptionalAbsent(fields: seq<Field>, data: map<string, Value>, re: Regex, i: nat)
    requires UniqueKeys(fields) && Validate(fields, data, re).Errors?
    requires i < |fields| && !fields[i].required && !Truthy(ValueOf(data, fields[i]))
    ensures forall other: Regex :: CheckField(fields[i], data, other) == Pass
    ensures ErrorsFor(Validate(fields, data, re).errors, Key(fields[i])) == []
  {
    OwnErrors(fields, data, re, i);
  }

  // ---------- acceptance ----------

  /** A value satisfies its descriptor: present when required, and matching the
      pattern when there is one and the value is truthy. */
  predicate Conforms(f: Field, v: Value, re: Regex) {
    && (f.required ==> !Blank(v))
    && (f.pattern != "" && Truthy(v) ==> re.compiles(f.pattern) && re.test(f.pattern, Stringify(v)))
  }

  /** A record is accepted (no errors, nothing thrown) exactly when every value
      conforms to its descriptor. */
  lemma {:induction false} AcceptsIffConforms(fields: seq<Field>, data: map<string, Value>, re: Regex)
    ensures Validate(fields, data, re) == Errors([])
            <==> forall i | 0 <= i < |fields| :: Conforms(fields[i], ValueOf(data, fields[i]), re)
  {
    if fields != [] {
      AcceptsIffConforms(fields[1..], data, re);
      assert forall i | 1 <= i < |fields| :: fields[i] == fields[1..][i - 1];
      if Validate(fields, data, re) == Errors([]) {
        assert Conforms(fields[0], ValueOf(data, fields[0]), re);
      }
    }
  }

  /** With the empty schema the server falls back to when its schema file is
      missing or unreadable, every record is accepted. */
  lemma MissingSchemaAcceptsAll(data: map<string, Value>, re: Regex)
    ensures Validate(FieldsOf(LoadSchema(None)), data, re) == Errors([])
  {
  }
}

=== FILE: wrappers.dfy ===
/** Optional values: a JavaScript property that may be `undefined`. */
module Wrappers {

  datatype Option<+T> = None | Some(value: T) {

    /** The carried value, or `default` when there is none (`x ?? default`). */
    function GetOr(default: T): T {
      match this
      case Some(v) => v
      case None => default
    }
  }
}
